=== FILE: README.md ===
# tinyhttpd request handling, modelled in Dafny

This project models the request-handling core of tinyhttpd, a small HTTP/1.0
server. The model is made of pure functions plus three small methods, and it
covers four parts:

- **Request line.** `do_session` reads the first line into `char buffer[1024]`.
  It copies the method into `method[32]` and the URL into `url_buf[255]`, then
  splits a GET URL at its first `?`.
- **Routing.** The URL is appended to the web root. Two rewrites can add
  `index.html`: one for a trailing `/`, one for a directory. Then `stat64`
  decides between the 404 page, the static file server `get_content` and the
  CGI executor `exec_cgi`.
- **Responses.**
  - The `HTTP_STATUS` table, `assemble` and the eight error wrappers.
  - `make_headers`.
  - The header block and single 8192-byte read of `get_content`.
  - The header scan of `exec_cgi` and its accounting of the script's output.
- **Connection registry.** This is the `data_set` of the event loop: the
  contexts `accept_connect` adds, `session_handler` removes on hang-up, and the
  shutdown loop drains.

The modules follow the program:

| module | file | covers |
|---|---|---|
| `Text` | text.dfy | C library helpers: `isspace`, `strcasecmp`, the NUL-terminated view of an array, `std::to_string`, `strtoul` |
| `Wire` | wire.dfy | Header framing, `make_headers`, and a small reader used to state round trips |
| `Response` | response.dfy | response.cpp |
| `Request` | request.dfy | The request-line scan |
| `Router` | router.dfy | Path resolution and the routing decision |
| `Cgi` | cgi.dfy | `exec_cgi` |
| `Content` | content.dfy | `get_content` |
| `Session` | session.dfy | `do_session` end to end |
| `Registry` | registry.dfy | The event-loop bookkeeping |

How the inputs are represented:
- **Request buffer.** It is the whole 1024-character array. The copy loops stop
  only at white space or at the array's end, so they can run past the NUL that
  `readline` wrote.
- **Header lines.** These are the strings `readline` would return, one per
  call. Past the end of the given lines, `readline` returns 0.
- **File system.** It is a map from path to `st_mode` and readable contents. A
  missing path is one `stat64` fails on. An entry without contents is one
  `ifstream` cannot open.
- **System calls.** Whether the pipes, the fork, `accept` and `epoll_ctl`
  succeed is an input. So are the bytes the CGI script writes.

Two behaviours of the code shape what the model can promise:
- The POST header scan never captures a length (finding 3 below). As
  written, every POST that reaches `exec_cgi` is refused with 400.
- A POST to a path `stat64` finds is always routed to the CGI executor
  (main.cpp:417-420, 476-478), so only a GET can get a 200 from a static
  path. A POST to a path `stat64` fails on gets 404, like a GET.

## Model

| member | source | states |
|---|---|---|
| `Text.StrToULNoNumber` | main.cpp:519 | `strtoul` of a text whose first character is not white space, a sign or a digit yields 0 |
| `Text.StrToUL` | main.cpp:519 | `strtoul` with base 10 never yields more than `ULONG_MAX`; its readings are stated by `StrToULNoNumber` and `StrToULDecimal` |
| `Text.StrToULDecimal` | main.cpp:519 | `strtoul` reads back a rendered number that follows white space and precedes a non-digit |
| `Text.Decimal` | response.cpp:29 | `std::to_string` of a length is a non-empty run of decimal digits, with no leading zero except for 0 itself and no CR, LF or NUL; the same rendering is used at main.cpp:627 |
| `Text.DecimalRoundTrip` | response.cpp:28-29 | the `std::to_string` rendering of a length, read back as decimal digits, is that length |
| `Wire.MakeHeaders` | main.cpp:487-493 | `make_headers()` is the 200 status line and the server line, each ended by CRLF |
| `Wire.OkStatusCode` | main.cpp:490 | the status line `make_headers` writes reads back as code 200 |
| `Wire.ParseHeaderBlock` | response.cpp:29-34 | CR-free non-empty lines, each closed by CRLF, then an empty line, then a body: splitting at the first blank line gives back exactly those lines and that body |
| `Wire.ContentLengthField` | response.cpp:29 | a `Content-Length: n` line after lines of other names is read back as `n` |
| `Response.Assemble` | response.cpp:13-35 | `assemble(c)` is a header block of status line, server, content type and content length, followed by the HTML body |
| `Response.StatusTextStartsWithCode` | response.cpp:11 | each of the eight entries of the `HTTP_STATUS` table (`Response.StatusText`) starts with its own three-digit code and a space and contains no CR |
| `Response.StatusLineCode` | response.cpp:16-18 | the status line `HTTP/1.0 <entry>` reads back as the code of its status |
| `Response.AssembleReadsBack` | response.cpp:13-35 | reading `assemble(c)` back gives four header lines: `HTTP/1.0` with the code of `c`, the server line, the content type, and a `Content-Length` equal to the exact body length. The body is exactly what follows the first blank line |
| `Response.StatusTextTwiceInBody` | response.cpp:22-27 | the status text occurs in the body at exactly two places: in `<title>` and in `<h1>` |
| `Response.BadRequest` | response.cpp:38-42 | `bad_request` sends a response whose status code is 400 |
| `Response.AccessDenied` | response.cpp:45-49 | `access_denied` sends a response whose status code is 401 |
| `Response.Forbidden` | response.cpp:52-56 | `forbidden` sends a response whose status code is 403 |
| `Response.NotFound` | response.cpp:59-63 | `not_found` sends a response whose status code is 404 |
| `Response.InternalServerError` | response.cpp:66-70 | `internal_server_error` sends a response whose status code is 500 |
| `Response.NotImplemented` | response.cpp:73-77 | `not_implemented` sends a response whose status code is 501 |
| `Response.BadGateway` | response.cpp:80-84 | `bad_gateway` sends a response whose status code is 502 |
| `Response.ServiceUnavailable` | response.cpp:87-91 | `service_unavailable` sends a response whose status code is 503 |
| `Request.MethodEnd` | main.cpp:402-408 | the method scan stops at the first white-space character or at the end of the buffer, after a run of non-white-space characters |
| `Request.MethodCopyOverflows` | main.cpp:402-409 | a 40-character first token makes the as-written method copy (`Request.MethodCopyAsWritten`, the whole first token) write past `method[32]` |
| `Request.MethodCopy` | main.cpp:402-409 | the bounded method copy keeps at most 31 characters, so its terminator fits, and is a prefix of the token |
| `Request.BoundedMethodAgrees` | main.cpp:409-415 | bounding the method copy changes neither the GET/POST verdict nor the method passed on, and changes nothing when the original copy stays in bounds |
| `Request.UrlStart` | main.cpp:422-426 | the URL starts after the method and the white space that follows it |
| `Request.UrlTokenPrefix` | main.cpp:427-433 | the URL copy is the run of non-white-space characters from the URL start, cut at the copy's limit |
| `Request.UrlCopyOverflows` | main.cpp:427-434 | `GET ` followed by a 255-character path makes the as-written URL copy (`Request.UrlCopyAsWritten`) keep 255 characters and put the terminator at `url_buf[255]` |
| `Request.UrlCopy` | main.cpp:427-434 | the bounded URL copy keeps at most 254 characters, so its terminator fits |
| `Request.BoundedUrlAgrees` | main.cpp:427-435 | the bounded URL copy is a prefix of the original copy, and equals it whenever the original stays in bounds; `Request.Url`, the C string `url` receives, is read from the bounded copy |
| `Request.RequestLineTokens` | main.cpp:402-435 | for a line `<method> <url> …` whose tokens fit their arrays, the scan yields exactly that method and that URL, whatever follows |
| `Request.SplitTarget` | main.cpp:417-446 | POST sets CGI candidacy. A GET URL containing `?` splits into a path without `?` and a query starting with `?`, whose concatenation is the URL, and sets candidacy. A GET URL without `?` leaves candidacy unset |
| `Router.ServedPathShape` | main.cpp:448-471 | the resolved path (`Router.WebPath` before `stat64`, `Router.ServedPath` after it) is the web root, then the URL path, then `index.html` after a trailing `/`, then `/index.html` for a directory; nothing else changes it |
| `Router.ServedPathResolves` | main.cpp:448-471 | resolution only appends to the web root and URL path; it leaves them unchanged exactly when the path does not end in `/` and is not a directory, and otherwise names an `index.html` |
| `Router.RouteRequest` | main.cpp:397-484 | zero characters read gives -1, and only then. A method that is neither GET nor POST gives 501. A 404 names a path `stat64` fails on. A static or CGI route names the resolved path of an existing entry. A CGI route carries the GET or POST method |
| `Router.RouteRules` | main.cpp:448-484 | after GET or POST, the route is a 404 exactly when `stat64` fails on the resolved path. Otherwise it is CGI exactly when the method is POST, the GET URL holds `?`, or an execute bit is set, and static otherwise |
| `Router.NotImplementedWhateverFollows` | main.cpp:411-415 | for a method other than GET or POST, the route is 501 whatever follows the method, under any web root and file system |
| `Cgi.DrainEnd` | main.cpp:502-509 | the GET loop reads up to and including the first line that is empty or the blank line, and no further |
| `Cgi.Truncated` | main.cpp:516 | after `buffer[15] = '\0'`, exactly the line's first `min(length, 15)` characters remain |
| `Cgi.PostScanAsWritten` | main.cpp:512-521 | `content_len` changes only on a line whose first 15 characters match `Content-Length:` case-insensitively |
| `Cgi.PostScanAsWrittenFindsNothing` | main.cpp:515-521 | whatever the header lines, the POST scan as written ends with `content_len == 0` |
| `Cgi.PostScan` | main.cpp:512-521 | the corrected POST scan also changes the length only on `Content-Length` lines |
| `Cgi.TruncationKeepsEnd` | main.cpp:516-521 | truncating the buffer to 15 characters does not change which line ends the headers |
| `Cgi.ScansStopAtBlankLine` | main.cpp:502-521 | both POST scans stop on the same line as the GET loop |
| `Cgi.PostScanReadsLength` | main.cpp:512-521 | after other header lines, a `Content-Length: n` line and the blank line, the corrected scan stops after the blank line with length `n` |
| `Cgi.ScanHeadersAsWritten` | main.cpp:502-526 | the header scan as written lets the request proceed exactly when the method is spelled `GET`. It reads up to the blank line |
| `Cgi.LowerCaseGetRefusedAsWritten` | main.cpp:502 | `get` passes the case-insensitive routing check, yet the executor as written refuses it |
| `Cgi.ScanHeaders` | main.cpp:502-526 | the corrected scan lets every GET proceed. Otherwise it uses the length the POST scan finds, and proceeds exactly when that length is not 0. It reads up to the blank line |
| `Cgi.PostWithLength` | main.cpp:510-526 | a POST announcing a positive length proceeds under the corrected scan and is refused under the as-written one |
| `Cgi.PostWithoutLength` | main.cpp:513-525 | without `Content-Length` lines the corrected scan keeps its initial length |
| `Cgi.TotalIsLength` | main.cpp:586-595 | the `read_size` the output loop accumulates (`Cgi.Total`) is the number of bytes the script wrote |
| `Cgi.Overwrite` | main.cpp:588 | one `read` into `buffer` replaces its first bytes with the bytes read and leaves the rest of the buffer as it was |
| `Cgi.CgiBufferAsWritten` | main.cpp:586-598 | with every read landing at offset 0, the defined bytes at the buffer's front never outnumber `read_size`, and the last read sits at the front of the buffer |
| `Cgi.SingleReadAgrees` | main.cpp:588-598 | with one read, the as-written loop sends exactly the script's output |
| `Cgi.CgiSentAsWritten` | main.cpp:586-598 | as written, `send` takes `read_size` bytes: the front the reads left, then what the memory at those offsets held before the loop |
| `Cgi.SingleReadSent` | main.cpp:586-598 | with at most one read, the as-written send is exactly the script's output, whatever the buffer held before |
| `Cgi.CgiBufferGarbles` | main.cpp:588-598 | reads of `[1, 2]` then `[3]` leave `[3, 2]` at the buffer's front while `read_size` is 3, so the client gets `3, 2` and a stale byte instead of `1, 2, 3` |
| `Cgi.CgiSendOverruns` | main.cpp:586-598 | a full read followed by one more byte makes `send(buffer, read_size)` read past `buffer[8192]` |
| `Cgi.CgiBody` | main.cpp:586-598 | the corrected body's length is the `read_size` the loop accumulates |
| `Cgi.ExecCgiAsWritten` | main.cpp:495-598 | `exec_cgi` as written: a process is started exactly when the method is spelled `GET` and the pipes and fork succeed; any other method gets 400; a `GET` whose pipes or fork fail gets 500; a started process gets a 200 that sends `make_headers()` and `read_size` bytes of the overwritten buffer |
| `Cgi.EveryPostRefusedAsWritten` | main.cpp:502-526 | as written, every request reaching `exec_cgi` whose method is not exactly `GET` drains the header lines to the blank line, gets 400, and never reaches `pipe` or `fork` |
| `Cgi.PostLengthIgnoredAsWritten` | main.cpp:510-526 | a POST announcing a positive length is answered with 400 and no process as written, while the corrected executor runs the script |
| `Cgi.ExecutorsAgree` | main.cpp:495-598 | on a method spelled exactly `GET` whose output arrives in at most one read, the as-written and corrected executors give the same result |
| `Cgi.ExecCgi` | main.cpp:495-598 | the corrected executor: a refused header scan gives 400; a pipe or fork failure gives 500; neither starts a process. A process is started exactly when the scan proceeds and the pipes and fork succeed, and then the reply is `make_headers()` followed by the script's output. Header lines are read up to the blank line |
| `Cgi.GetRuns` | main.cpp:495-598 | in the corrected executor, a GET in any letter case runs the script once the pipes and fork succeed and sends its output |
| `Cgi.PostWithoutLengthRefused` | main.cpp:510-526 | a POST with no `Content-Length` line gets 400 and starts no process |
| `Content.StaticHeaders` | main.cpp:618-627 | the static header text is a header block of the 200 line, the server line, `Content-Type: text/html` and `Content-Length: n` |
| `Content.StaticResponseReadsBack` | main.cpp:618-629 | reading a static response back gives status 200, and the announced `Content-Length` equals the number of body bytes sent |
| `Content.ReadIntoBuffer` | main.cpp:621-626 | the read loop ends with `read_size == gcount() == min(size of file, 8192)` and the buffer holding the file's first bytes |
| `Content.StaticReply` | main.cpp:611-636 | a failed open gives 404, and only it. A successful open always gives a 200 whose body is the file's first `min(size, 8192)` bytes, announced by the static headers |
| `Content.GetContent` | main.cpp:611-636 | `get_content`, with its read loop, sends what `StaticReply` describes, and the response parses |
| `Content.SmallFileSentWhole` | main.cpp:621-629 | a file of at most 8192 bytes is sent whole |
| `Session.DoSession` | main.cpp:388-485 | zero characters read gives -1, and only then. A process is started only for GET or POST, and only when the pipes and fork succeed. Every 200 reply starts with `make_headers()` |
| `Session.UnknownMethod` | main.cpp:411-415 | a method other than GET or POST gets 501, and no further line is read |
| `Session.MissingFile` | main.cpp:457-465 | a GET of a path `stat64` fails on drains the header lines up to the blank line and gets 404 |
| `Session.MissingPathAnyMethod` | main.cpp:457-465 | a GET or a POST, with or without a query, whose resolved path `stat64` fails on drains the header lines to the blank line and gets 404, starting no process |
| `Session.StaticAnyRequest` | main.cpp:466-484 | every request routed to the static server is answered by `get_content` on the served path, and no header line is read |
| `Session.StaticFile` | main.cpp:437-484 | a GET of a readable, non-executable regular file gets 200 and reads no header line. Its `Content-Length` equals the body length, and the body is the file, cut at 8192 bytes |
| `Session.PostRoute` | main.cpp:417-484 | a POST to an existing path goes to the CGI executor |
| `Session.PostRunsScript` | main.cpp:417-598 | with the corrected scan, a POST announcing a positive length runs the script and sends `make_headers()` and its output |
| `Session.PostWithoutLengthRefused` | main.cpp:510-526 | a POST without `Content-Length` to an existing path gets 400 and starts no process |
| `Session.GetIndexScenario` | main.cpp:611-632 | `GET /index.html` of a 50-byte file is answered with `Content-Length: 50` and the file's bytes |
| `Session.PutScenario` | main.cpp:411-415 | `PUT /index.html` is answered with 501 |
| `Registry.Accept` | main.cpp:186-253 | an accept adds at most one context, under the next id |
| `Registry.Handle` | main.cpp:255-285 | a connection event never adds a context |
| `Registry.AcceptInsertsOne` | main.cpp:231-247 | a readable listener adds one new context exactly when `accept` and `EPOLL_CTL_ADD` succeed. Otherwise the registry is unchanged, and a registration failure closes the accepted socket |
| `Registry.HangupRemovesOnce` | main.cpp:259-272 | a hang-up removes the context, and shuts down and closes its socket, exactly when `EPOLL_CTL_DEL` succeeds. No other context changes |
| `Registry.NoHangupNoChange` | main.cpp:273-284 | error, readable and unknown events leave the registry unchanged and close nothing |
| `Registry.ServedOnlyWhenReadable` | main.cpp:259-280 | a request is handed to `do_session` exactly when the event is readable with neither hang-up nor error |
| `Registry.Step` | main.cpp:154-157 | the loop hands a listener event to `accept_connect`, which can only add the next id, and a connection event to `session_handler`, which never adds a context; only a connection event hands its own connection to `do_session` |
| `Registry.StepPreservesValid` | main.cpp:231-272 | each handler keeps ids fresh and sockets distinct among registered contexts |
| `Registry.Run` | main.cpp:140-159 | the id counter never goes back over a run of events |
| `Registry.RunPreservesValid` | main.cpp:140-159 | the registry stays valid over any run of events |
| `Registry.RemovedStaysRemoved` | main.cpp:255-272 | a removed context never returns, so each connection is removed at most once |
| `Registry.Shutdown` | main.cpp:161-172 | the shutdown loop ends with an empty registry, having closed each registered socket exactly once |

## Left out

- Sockets, `setsockopt`, `bind`, `getsockname`, `epoll_create` and `epoll_wait` (`init_ipv4`, `init_ipv6`, the set-up in `main`). As written, `listen` is never called on the bound sockets. These are operating-system I/O; only the success of `accept` and `epoll_ctl` enters the model, as an input.
- `readline` is not part of this model. Its results are given as the request buffer with a count, and as a sequence of header lines.
- `fork`, `execl`, `dup2`, `putenv`, `waitpid` and the child side of `exec_cgi`. These are process management: their success is an input, and the script's output is a sequence of reads.
- The POST body forwarding loop (`recv` into the buffer, then `write` to the child, main.cpp:570-585) is not modelled. With the code as written it is unreachable, because every POST is refused with 400 first. The corrected executor (`Cgi.ExecCgi`, and so `Session.DoSession` and `Session.PostRunsScript`) leaves it out as well. `Session.PostRunsScript` assumes the loop completes: a `recv` that returns 0 before `content_len` bytes have arrived adds nothing, and the loop never ends.
- The pipe descriptors opened before a failing second `pipe` or a failing `fork` are never closed. No descriptor is modelled for the pipes, so this leak is not represented.
- `HttpConfig` (the JSON configuration) is left out; the web root is a parameter.
- Signal handling (`abort_loop`), `handle_error`'s logging and every `_DEBUG` print are left out.
- The response functions take `(fd, webpath)` at their call sites but only `fd` in response.cpp. The model gives each response as a function of its status code alone.
- `Cgi.CgiBody`: `read_size` is an `unsigned int` and wraps after 4 GiB of output; the model counts without bound.
- `Router.WebPath`: when the web root and the URL are both empty, the source reads `webpath[-1]`. The model treats the empty path as not ending in `/`.
- `Cgi.ExecCgi`: this is the corrected executor (case-insensitive GET test, the length read after `Content-Length:`, the output sent in order). The code as written is `Cgi.ExecCgiAsWritten`.
- `Cgi.GetRuns`: holds of the corrected executor only; as written, a lower-case `get` gets 400 and output in several reads is garbled.
- `Router.RouteRequest`: routing uses the corrected copies of the request line, `Request.MethodCopy` (at most 31 characters) and `Request.UrlCopy` (at most 254). The code's copies write past `method[32]` and `url_buf[255]`. A 255-character URL is therefore resolved from its first 254 characters, where the code would use all 255.
- `Session.DoSession`: the CGI executor is modelled with the corrected header scan and output loop; the as-written versions are stated separately in the Cgi module.

## Findings

| source | as written | input that shows it | evidently intended | confidence | as-written member | corrected member |
|---|---|---|---|---|---|---|
| main.cpp:402-409 | the method copy has no bound and writes `method[index]` for every character of the first token | a first token of 40 non-space characters | copy at most 31 characters so that the terminator fits `method[32]` | not executed | `Request.MethodCopyOverflows` | `Request.MethodCopy` |
| main.cpp:427-434 | the URL copy stores up to 255 characters, then writes the terminator at `url_buf[index]` | `GET ` followed by a 255-character path | stop at 254 characters so that the terminator fits `url_buf[255]` | not executed | `Request.UrlCopyOverflows` | `Request.UrlCopy` |
| main.cpp:516-519 | `buffer[15]` is set to NUL before `strtoul(buffer, …)`, which then parses the text `Content-Length:` and yields 0, so every POST gets 400 | `POST` with a `Content-Length: 5` line, then the blank line | parse the number after the first 15 characters | not executed | `Cgi.PostLengthIgnoredAsWritten` | `Cgi.PostScanReadsLength` |
| main.cpp:502 | the executor picks the GET branch with the case-sensitive `strcmp`, while routing (main.cpp:411, 437) and the child (main.cpp:549) compare case-insensitively | request line `get /cgi-bin/x?a=1 HTTP/1.0` to an executable | compare with `strcasecmp`, like the rest of the program | not executed | `Cgi.LowerCaseGetRefusedAsWritten` | `Cgi.ScanHeaders` |
| main.cpp:588-598 | each `read` lands at the start of `buffer` while `read_size` adds up all reads, and then `send(buffer, read_size)` sends the last read's bytes followed by stale or undefined ones, reading past `buffer[8192]` once the total exceeds it | the script's output arriving as two reads, `[1, 2]` and `[3]` | send the script's output, every byte once, in order | not executed | `Cgi.CgiBufferGarbles` | `Cgi.CgiBody` |

=== FILE: cgi.dfy ===
/**
 The CGI executor `exec_cgi` (main.cpp): the scan of the request's header
 lines, the decision between the 400 and 500 pages and running the script,
 and the accounting of the script's output. `readline`, the pipes, `fork`,
 `execl`, the environment and `waitpid` are not modelled: the header lines
 are a given sequence, and whether the pipes and the fork succeed and what
 the script writes are inputs.

 Three defects of the source are modelled as written, each with an input
 that shows it, next to the corrected definition the rest of the model uses:
 the POST scan parses the already truncated field name instead of its value,
 the GET branch is chosen by a case-sensitive comparison although routing
 is case-insensitive, and the output loop overwrites the front of its buffer
 on every read while counting the bytes of all reads.
 */
module Cgi {
  import opened Text
  import opened Wire
  import opened Request
  import opened Response

  const CgiBufferSize := 8192
  const ContentLengthName := "Content-Length:"

  // ---------------------------------------------------------------------
  // Header lines

  /**
   The `i`-th line `readline` returns after the request line: the C string it
   stores, whose length is its return value. Past the end of the given lines
   the connection has nothing more and `readline` returns 0.
   */
  function Line(lines: seq<string>, i: nat): string
  {
    if i < |lines| then lines[i] else ""
  }

  /** The condition that ends a header loop: a read of nothing, or the blank line. */
  predicate EndsHeaders(line: string)
  {
    |line| == 0 || line == "\n"
  }

  /**
   The number of lines, counted from the start, that a loop reading up to
   and including the line that ends the headers consumes when it starts at
   line `i`: the GET branch's loop, and the drain before the 404 page.
   */
  function DrainEnd(lines: seq<string>, i: nat): (e: nat)
    ensures i < e <= if i < |lines| then |lines| + 1 else i + 1
    ensures EndsHeaders(Line(lines, e - 1))
    ensures forall k :: i <= k < e - 1 ==> !EndsHeaders(Line(lines, k))
    decreases |lines| - i
  {
    if EndsHeaders(Line(lines, i)) then i + 1 else DrainEnd(lines, i + 1)
  }

  /** Where a header scan stopped, and the `content_len` it ended with. */
  datatype Scan = Scan(end: nat, contentLength: nat)

  /** `strncasecmp("Content-Length:", t, 15) == 0` for a NUL-free `t`. */
  predicate NamesContentLength(t: string)
  {
    EqualsIgnoreCase(t, ContentLengthName)
  }

  // ---------------------------------------------------------------------
  // The POST scan as written: `buffer[15] = '\0'` comes before both the
  // comparison and `strtoul(buffer, …)`

  /** The C string left in `buffer` once `buffer[15]` is set to NUL. */
  function Truncated(line: string): (t: string)
    ensures |t| == Min(|line|, 15) && t <= line
  {
    line[..Min(|line|, 15)]
  }

  /** The POST branch's loop as written, from line `i` with `content_len == len`. */
  function PostScanAsWritten(lines: seq<string>, i: nat, len: nat): (r: Scan)
    ensures i < r.end
    ensures r.contentLength == len ||
      exists k :: i <= k < r.end && NamesContentLength(Truncated(Line(lines, k)))
    decreases |lines| - i
  {
    var line := Line(lines, i);
    var t := Truncated(line);
    var len' := if NamesContentLength(t) then StrToUL(t) else len;
    if |line| == 0 || t == "\n" then Scan(i + 1, len')
    else PostScanAsWritten(lines, i + 1, len')
  }

  /**
   Whatever the header lines hold, the as-written scan ends with
   `content_len == 0`: every line it accepts begins with the letter `C` or
   `c`, which `strtoul` does not read as a number.
   */
  lemma {:induction false} PostScanAsWrittenFindsNothing(lines: seq<string>, i: nat)
    ensures PostScanAsWritten(lines, i, 0).contentLength == 0
    decreases |lines| - i
  {
    var line := Line(lines, i);
    var t := Truncated(line);
    if NamesContentLength(t) {
      assert Lower(t[0]) == 'c';
      StrToULNoNumber(t);
    }
    if !(|line| == 0 || t == "\n") {
      PostScanAsWrittenFindsNothing(lines, i + 1);
    }
  }

  // ---------------------------------------------------------------------
  // The POST scan corrected: the name is compared on the first 15
  // characters and the number is read from the text after them

  /** A line that announces a body length. */
  predicate IsContentLengthLine(line: string)
  {
    |line| >= 15 && NamesContentLength(line[..15])
  }

  /** The POST branch's loop, corrected, from line `i` with `content_len == len`. */
  function PostScan(lines: seq<string>, i: nat, len: nat): (r: Scan)
    ensures i < r.end
    ensures r.contentLength == len ||
      exists k :: i <= k < r.end && IsContentLengthLine(Line(lines, k))
    decreases |lines| - i
  {
    var line := Line(lines, i);
    var len' := if IsContentLengthLine(line) then StrToUL(line[15..]) else len;
    if EndsHeaders(line) then Scan(i + 1, len')
    else PostScan(lines, i + 1, len')
  }

  /** Truncating the buffer does not change which line ends the headers. */
  lemma TruncationKeepsEnd(line: string)
    ensures (|line| == 0 || Truncated(line) == "\n") <==> EndsHeaders(line)
  {
    if |line| > 1 {
      assert |Truncated(line)| > 1;
    }
  }

  /** Both POST scans stop on the same line as the GET branch's loop. */
  lemma {:induction false} ScansStopAtBlankLine(lines: seq<string>, i: nat, len: nat)
    ensures PostScanAsWritten(lines, i, len).end == DrainEnd(lines, i)
    ensures PostScan(lines, i, len).end == DrainEnd(lines, i)
    decreases |lines| - i
  {
    var line := Line(lines, i);
    TruncationKeepsEnd(line);
    if !EndsHeaders(line) {
      var t := Truncated(line);
      ScansStopAtBlankLine(lines, i + 1, if NamesContentLength(t) then StrToUL(t) else len);
      ScansStopAtBlankLine(lines, i + 1, if IsContentLengthLine(line) then StrToUL(line[15..]) else len);
    }
  }

  /** The header line a client sends to announce a body of `n` bytes, as `readline` stores it. */
  function ContentLengthLine(n: nat): string
  {
    "Content-Length: " + Decimal(n) + "\n"
  }

  /** A line that neither ends the headers nor announces a length leaves the corrected scan's state alone. */
  predicate OtherHeader(line: string)
  {
    !EndsHeaders(line) && !IsContentLengthLine(line)
  }

  /**
   The corrected scan reads the announced length: after other header lines,
   a `Content-Length: n` line and then the blank line, it stops after the
   blank line with `content_len == n`.
   */
  lemma PostScanReadsLength(before: seq<string>, n: nat, rest: seq<string>)
    requires forall k :: 0 <= k < |before| ==> OtherHeader(before[k])
    requires n <= ULongMax
    ensures PostScan(before + [ContentLengthLine(n), "\n"] + rest, 0, 0) == Scan(|before| + 2, n)
  {
    PostScanReadsLengthFrom(before, n, rest, 0, 0);
  }

  lemma {:induction false} PostScanReadsLengthFrom(before: seq<string>, n: nat, rest: seq<string>, i: nat, len: nat)
    requires forall k :: 0 <= k < |before| ==> OtherHeader(before[k])
    requires n <= ULongMax
    requires i <= |before|
    ensures PostScan(before + [ContentLengthLine(n), "\n"] + rest, i, len) == Scan(|before| + 2, n)
    decreases |before| - i
  {
    var lines := before + [ContentLengthLine(n), "\n"] + rest;
    if i < |before| {
      assert Line(lines, i) == before[i];
      PostScanReadsLengthFrom(before, n, rest, i + 1, len);
    } else {
      var cl := ContentLengthLine(n);
      assert Line(lines, i) == cl;
      assert Line(lines, i + 1) == "\n";
      ContentLengthLineReads(n);
      assert PostScan(lines, i + 1, n) == Scan(i + 2, n);
    }
  }

  /** The announcing line is a length line, does not end the headers, and its value reads back as `n`. */
  lemma ContentLengthLineReads(n: nat)
    requires n <= ULongMax
    ensures var cl := ContentLengthLine(n);
      IsContentLengthLine(cl) && !EndsHeaders(cl) && StrToUL(cl[15..]) == n
  {
    var cl := ContentLengthLine(n);
    assert cl[..15] == ContentLengthName;
    assert cl[15..] == " " + Decimal(n) + "\n";
    StrToULDecimal(" ", n, "\n");
  }

  // ---------------------------------------------------------------------
  // The header scan as a whole

  /** Which loop runs, where it stops, the `content_len` it found, and whether the request goes on. */
  datatype HeaderScan = HeaderScan(consumed: nat, contentLength: nat, proceeds: bool)

  /** As written: `strcmp(method, "GET") == 0` picks the GET branch. */
  predicate TakesGetBranchAsWritten(verb: string)
  {
    verb == "GET"
  }

  /** Corrected: the same case-insensitive comparison the router and the child use. */
  predicate TakesGetBranch(verb: string)
  {
    IsGet(verb)
  }

  /**
   The header scan as written. Every request that does not spell its method
   exactly `GET` is refused, since the POST scan never finds a length.
   */
  function ScanHeadersAsWritten(verb: string, lines: seq<string>): (h: HeaderScan)
    ensures h.consumed == DrainEnd(lines, 0)
    ensures h.proceeds <==> verb == "GET"
  {
    ScansStopAtBlankLine(lines, 0, 0);
    if TakesGetBranchAsWritten(verb) then HeaderScan(DrainEnd(lines, 0), 0, true)
    else
      var s := PostScanAsWritten(lines, 0, 0);
      PostScanAsWrittenFindsNothing(lines, 0);
      HeaderScan(s.end, s.contentLength, s.contentLength != 0)
  }

  /** A lower-case `get` is routed to the CGI executor, which then refuses it. */
  lemma LowerCaseGetRefusedAsWritten()
    ensures IsGet("get") && !ScanHeadersAsWritten("get", ["\n"]).proceeds
  {
    assert "get" != "GET" by { assert "get"[0] != "GET"[0]; }
  }

  /** The corrected header scan: GET in any case drains; otherwise a positive length is required. */
  function ScanHeaders(verb: string, lines: seq<string>): (h: HeaderScan)
    ensures h.consumed == DrainEnd(lines, 0)
    ensures TakesGetBranch(verb) ==> h.proceeds
    ensures !TakesGetBranch(verb) ==> h.contentLength == PostScan(lines, 0, 0).contentLength
    ensures !TakesGetBranch(verb) ==> (h.proceeds <==> h.contentLength != 0)
  {
    ScansStopAtBlankLine(lines, 0, 0);
    if TakesGetBranch(verb) then HeaderScan(DrainEnd(lines, 0), 0, true)
    else
      var s := PostScan(lines, 0, 0);
      HeaderScan(s.end, s.contentLength, s.contentLength != 0)
  }

  /** A POST announcing a positive length is accepted by the corrected scan and refused by the as-written one. */
  lemma PostWithLength(before: seq<string>, n: nat, rest: seq<string>)
    requires forall k :: 0 <= k < |before| ==> OtherHeader(before[k])
    requires 0 < n <= ULongMax
    ensures var lines := before + [ContentLengthLine(n), "\n"] + rest;
      && ScanHeaders("POST", lines) == HeaderScan(|before| + 2, n, true)
      && !ScanHeadersAsWritten("POST", lines).proceeds
  {
    PostScanReadsLength(before, n, rest);
    assert !IsGet("POST") by { assert Lower("POST"[0]) != Lower("GET"[0]); }
    assert "POST" != "GET";
  }

  /** A POST that announces no length is refused; only the corrected scan's state matters for this. */
  lemma {:induction false} PostWithoutLength(lines: seq<string>, i: nat, len: nat)
    requires forall k :: i <= k < |lines| ==> !IsContentLengthLine(lines[k])
    ensures PostScan(lines, i, len).contentLength == len
    decreases |lines| - i
  {
    var line := Line(lines, i);
    if !EndsHeaders(line) {
      PostWithoutLength(lines, i + 1, len);
    }
  }

  // ---------------------------------------------------------------------
  // The script's output

  /** The bytes of all reads, in order. */
  function Flatten(chunks: seq<seq<byte>>): seq<byte>
  {
    if chunks == [] then [] else Flatten(chunks[..|chunks| - 1]) + chunks[|chunks| - 1]
  }

  /** `read_size` after the loop: the sum of the counts the reads returned. */
  function Total(chunks: seq<seq<byte>>): nat
  {
    if chunks == [] then 0 else Total(chunks[..|chunks| - 1]) + |chunks[|chunks| - 1]|
  }

  /** The count the loop accumulates is the number of bytes the script wrote. */
  lemma {:induction false} TotalIsLength(chunks: seq<seq<byte>>)
    ensures Total(chunks) == |Flatten(chunks)|
  {
    if chunks != [] {
      TotalIsLength(chunks[..|chunks| - 1]);
    }
  }

  /** One `read(pipe, buffer, …)` of `c` over a buffer whose front holds `buf`. */
  function Overwrite(buf: seq<byte>, c: seq<byte>): (r: seq<byte>)
    ensures |r| == if |c| < |buf| then |buf| else |c|
    ensures r[..|c|] == c
    ensures |c| < |buf| ==> r[|c|..] == buf[|c|..]
  {
    if |c| < |buf| then c + buf[|c|..] else c
  }

  /** As written: the front of `buffer` after the loop, every read having landed at offset 0. */
  function CgiBufferAsWritten(chunks: seq<seq<byte>>): (b: seq<byte>)
    ensures |b| <= Total(chunks)
    ensures chunks != [] ==> |chunks[|chunks| - 1]| <= |b| && b[..|chunks[|chunks| - 1]|] == chunks[|chunks| - 1]
  {
    if chunks == [] then [] else Overwrite(CgiBufferAsWritten(chunks[..|chunks| - 1]), chunks[|chunks| - 1])
  }

  /** The as-written `send(fd, buffer, read_size, 0)` stays inside `char buffer[8192]`. */
  predicate CgiSendInBounds(chunks: seq<seq<byte>>)
  {
    Total(chunks) <= CgiBufferSize
  }

  /** With a single read the as-written loop sends exactly the script's output. */
  lemma SingleReadAgrees(c: seq<byte>)
    ensures CgiBufferAsWritten([c]) == Flatten([c]) == c && Total([c]) == |c|
  {
    assert [c][..0] == [];
  }

  /**
   As written: the `read_size` bytes `send(fd, buffer, read_size, 0)` takes.
   `memory` is what `buffer`, and the stack past its end, held before the
   output loop; offsets that no read reached still hold those bytes.
   */
  function CgiSentAsWritten(chunks: seq<seq<byte>>, memory: nat -> byte): (b: seq<byte>)
    ensures |b| == Total(chunks)
    ensures b[..|CgiBufferAsWritten(chunks)|] == CgiBufferAsWritten(chunks)
    ensures forall i :: |CgiBufferAsWritten(chunks)| <= i < Total(chunks) ==> b[i] == memory(i)
  {
    var front := CgiBufferAsWritten(chunks);
    seq(Total(chunks), i requires 0 <= i < Total(chunks) => if i < |front| then front[i] else memory(i))
  }

  /** With at most one read, what the as-written loop sends is the script's output, whatever memory held. */
  lemma SingleReadSent(chunks: seq<seq<byte>>, memory: nat -> byte)
    requires |chunks| <= 1
    ensures CgiSentAsWritten(chunks, memory) == Flatten(chunks)
  {
  }

  /**
   Two reads of `[1, 2]` and `[3]` leave `[3, 2]` at the front of the buffer
   while `read_size` is 3: the client is sent `3, 2` and then a byte the
   script never wrote, instead of `1, 2, 3`.
   */
  lemma CgiBufferGarbles(memory: nat -> byte)
    ensures var chunks: seq<seq<byte>> := [[1, 2], [3]];
      && Flatten(chunks) == [1, 2, 3]
      && CgiBufferAsWritten(chunks) == [3, 2]
      && Total(chunks) == 3
      && CgiSendInBounds(chunks)
      && CgiSentAsWritten(chunks, memory) == [3, 2, memory(2)]
      && CgiSentAsWritten(chunks, memory) != Flatten(chunks)
  {
    var chunks: seq<seq<byte>> := [[1, 2], [3]];
    assert chunks[..1] == [[1, 2]];
    assert [[1, 2]][..0] == [];
    assert [3] + [1, 2][1..] == [3, 2];
    var b := CgiSentAsWritten(chunks, memory);
    assert b[0] == 3 && b[1] == 2 && b[2] == memory(2);
    assert b == [3, 2, memory(2)];
  }

  /** A full buffer followed by one more byte makes the as-written send read past the buffer. */
  lemma CgiSendOverruns()
    ensures !CgiSendInBounds([seq(CgiBufferSize, _ => 0), [1]])
  {
    var full: seq<byte> := seq(CgiBufferSize, _ => 0);
    var chunks: seq<seq<byte>> := [full, [1]];
    assert chunks[..1] == [full];
    assert [full][..0] == [];
    assert Total([full]) == CgiBufferSize;
    assert Total(chunks) == CgiBufferSize + 1;
  }

  /** Corrected: the body sent is what the script wrote, every byte once, in order. */
  function CgiBody(chunks: seq<seq<byte>>): (b: seq<byte>)
    ensures |b| == Total(chunks)
  {
    TotalIsLength(chunks);
    Flatten(chunks)
  }

  // ---------------------------------------------------------------------
  // exec_cgi

  /** The outcome of the system calls `exec_cgi` makes, and what the script writes to its pipe. */
  datatype CgiRun = CgiRun(pipesOk: bool, forkOk: bool, output: seq<seq<byte>>)

  /** The reply, the header lines consumed, and whether a child process was created. */
  datatype CgiResult = CgiResult(reply: Reply, consumed: nat, spawned: bool)

  /** `exec_cgi` with the corrected header scan and output loop. */
  function ExecCgi(verb: string, lines: seq<string>, run: CgiRun): (r: CgiResult)
    ensures r.consumed == DrainEnd(lines, 0)
    ensures r.spawned <==> ScanHeaders(verb, lines).proceeds && run.pipesOk && run.forkOk
    ensures !ScanHeaders(verb, lines).proceeds ==> r.reply == ErrorPage(Http400)
    ensures ScanHeaders(verb, lines).proceeds && !(run.pipesOk && run.forkOk) ==> r.reply == ErrorPage(Http500)
    ensures r.spawned ==> r.reply == Success(MakeHeaders(), CgiBody(run.output))
    ensures r.reply.Success? ==> |r.reply.body| == Total(run.output)
  {
    var h := ScanHeaders(verb, lines);
    if !h.proceeds then CgiResult(ErrorPage(Http400), h.consumed, false)
    else if !run.pipesOk || !run.forkOk then CgiResult(ErrorPage(Http500), h.consumed, false)
    else CgiResult(Success(MakeHeaders(), CgiBody(run.output)), h.consumed, true)
  }

  /**
   `exec_cgi` as written: the case-sensitive branch choice, the POST scan
   that clears `buffer[15]` before reading the length, and the send of
   `read_size` bytes from the buffer every read overwrote at offset 0.
   */
  function ExecCgiAsWritten(verb: string, lines: seq<string>, run: CgiRun, memory: nat -> byte): (r: CgiResult)
    ensures r.consumed == DrainEnd(lines, 0)
    ensures r.spawned <==> verb == "GET" && run.pipesOk && run.forkOk
    ensures verb != "GET" ==> r.reply == ErrorPage(Http400)
    ensures verb == "GET" && !(run.pipesOk && run.forkOk) ==> r.reply == ErrorPage(Http500)
    ensures r.spawned ==> r.reply == Success(MakeHeaders(), CgiSentAsWritten(run.output, memory))
    ensures r.reply.Success? ==> r.spawned && |r.reply.body| == Total(run.output)
  {
    var h := ScanHeadersAsWritten(verb, lines);
    if !h.proceeds then CgiResult(ErrorPage(Http400), h.consumed, false)
    else if !run.pipesOk || !run.forkOk then CgiResult(ErrorPage(Http500), h.consumed, false)
    else CgiResult(Success(MakeHeaders(), CgiSentAsWritten(run.output, memory)), h.consumed, true)
  }

  /**
   As written, every request reaching `exec_cgi` whose method is not exactly
   `GET` reads the header lines up to the blank line, gets 400, and never
   reaches `pipe` or `fork`.
   */
  lemma EveryPostRefusedAsWritten(verb: string, lines: seq<string>, run: CgiRun, memory: nat -> byte)
    requires verb != "GET"
    ensures ExecCgiAsWritten(verb, lines, run, memory) == CgiResult(ErrorPage(Http400), DrainEnd(lines, 0), false)
  {
  }

  /**
   A POST announcing a positive length: the corrected executor runs the
   script, the as-written one answers 400 without a process.
   */
  lemma PostLengthIgnoredAsWritten(before: seq<string>, n: nat, after: seq<string>, output: seq<seq<byte>>, memory: nat -> byte)
    requires forall k :: 0 <= k < |before| ==> OtherHeader(before[k])
    requires 0 < n <= ULongMax
    ensures var lines := before + [ContentLengthLine(n), "\n"] + after;
      && ExecCgi("POST", lines, CgiRun(true, true, output)).spawned
      && ExecCgiAsWritten("POST", lines, CgiRun(true, true, output), memory)
           == CgiResult(ErrorPage(Http400), |before| + 2, false)
  {
    PostWithLength(before, n, after);
  }

  /**
   The two executors agree on a request spelled exactly `GET` whose script
   output arrives in at most one read: the corrections change nothing there.
   */
  lemma ExecutorsAgree(lines: seq<string>, run: CgiRun, memory: nat -> byte)
    requires |run.output| <= 1
    ensures ExecCgiAsWritten("GET", lines, run, memory) == ExecCgi("GET", lines, run)
  {
  }

  /** A GET in any case is run once the pipes and the fork succeed, and its body is the script's output. */
  lemma GetRuns(verb: string, lines: seq<string>, run: CgiRun)
    requires IsGet(verb) && run.pipesOk && run.forkOk
    ensures ExecCgi(verb, lines, run) == CgiResult(Success(MakeHeaders(), Flatten(run.output)), DrainEnd(lines, 0), true)
  {
  }

  /** A POST without a `Content-Length` line is refused with 400 before any pipe or fork. */
  lemma PostWithoutLengthRefused(lines: seq<string>, run: CgiRun)
    requires forall k :: 0 <= k < |lines| ==> !IsContentLengthLine(lines[k])
    ensures var r := ExecCgi("POST", lines, run);
      r.reply == ErrorPage(Http400) && !r.spawned
  {
    PostWithoutLength(lines, 0, 0);
    assert !IsGet("POST") by { assert Lower("POST"[0]) != Lower("GET"[0]); }
  }
}

=== FILE: content.dfy ===
/**
 The static file server `get_content` (main.cpp): one `ifstream::read` into
 `char buffer[8192]`, a 200 header block announcing the count read, and that
 many bytes of the file as body. The file is the bytes the stream would
 deliver, or nothing when the open fails.
 */
module Content {
  import opened Text
  import opened Wire
  import opened Response

  const ContentBufferSize := 8192
  const StaticContentType := "Content-Type: text/html"

  /** The header lines `get_content` sends before a body of `n` bytes. */
  function StaticHeaderLines(n: nat): seq<string>
  {
    [OkStatusLine, ServerHeader, StaticContentType, "Content-Length: " + Decimal(n)]
  }

  /**
   The header text `get_content` sends: `make_headers()`, the content type,
   and the length, closed by the blank line. It is a well-formed header block
   of four lines.
   */
  function StaticHeaders(n: nat): (h: string)
    ensures h == HeaderBlock(StaticHeaderLines(n))
  {
    var h := MakeHeaders() + "Content-Type: text/html\r\n" + "Content-Length: " + Decimal(n) + "\r\n\r\n";
    JoinFourLines(OkStatusLine, ServerHeader, StaticContentType, "Content-Length: " + Decimal(n));
    h
  }

  /**
   Reading a static response back: the header block ends where it should,
   the body is exactly what follows, the status is 200 and the announced
   `Content-Length` is the number of body bytes.
   */
  lemma StaticResponseReadsBack(body: seq<byte>)
    ensures var m := ParseMessage(StaticHeaders(|body|) + BytesAsText(body));
      && m == Some(Message(StaticHeaderLines(|body|), BytesAsText(body)))
      && StatusCodeOf(m.value.lines[0]) == Some(200)
      && ContentLengthOf(m.value.lines) == Some(|BytesAsText(body)|)
  {
    var n := |body|;
    StaticHeaderLinesWellFormed(n);
    ParseHeaderBlock(StaticHeaderLines(n), BytesAsText(body));
    OkStatusCode();
    StaticContentLength(n);
  }

  lemma StaticHeaderLinesWellFormed(n: nat)
    ensures HeaderLines(StaticHeaderLines(n))
  {
    assert '\r' !in OkStatusLine && '\r' !in ServerHeader && '\r' !in StaticContentType;
    assert '\r' !in "Content-Length: ";
  }

  lemma StaticContentLength(n: nat)
    ensures ContentLengthOf(StaticHeaderLines(n)) == Some(n)
  {
    var ls := StaticHeaderLines(n);
    assert ls == [ls[0], ls[1], ls[2]] + ["Content-Length: " + Decimal(n)] + [];
    assert ls[0][0] == 'H' && ls[1][0] == 'S' && ls[2][8] == 'T';
    ContentLengthField([ls[0], ls[1], ls[2]], n, []);
  }

  /**
   The read loop: `while (ifs.good() && read_size < sizeof(buffer))` with
   `ifs.read(buffer, sizeof(buffer))` and `read_size += ifs.gcount()`. A
   read that delivers fewer bytes than asked sets end-of-file, so the loop
   body runs once: `read_size` and the final `gcount()` both equal the
   smaller of the file's size and the buffer's.
   */
  method ReadIntoBuffer(file: seq<byte>) returns (buffer: seq<byte>, readSize: nat, gcount: nat)
    ensures readSize == gcount == Min(|file|, ContentBufferSize)
    ensures buffer == file[..gcount]
  {
    var pos := 0;
    var good := true;
    buffer, readSize, gcount := [], 0, 0;
    while good && readSize < ContentBufferSize
      invariant pos == readSize == gcount <= |file| && readSize <= ContentBufferSize
      invariant buffer == file[..readSize]
      invariant good ==> readSize == 0 || readSize == ContentBufferSize
      invariant !good ==> readSize == |file| < ContentBufferSize
      decreases (if good then 2 else 0) + (if readSize < ContentBufferSize then 1 else 0)
    {
      var k := Min(ContentBufferSize, |file| - pos);
      buffer := file[pos..pos + k];
      pos := pos + k;
      gcount := k;
      readSize := readSize + gcount;
      if k < ContentBufferSize {
        good := false;
      }
    }
  }

  /**
   What `get_content` sends for a file: the 404 page when the open fails,
   otherwise the 200 headers announcing the first `min(|file|, 8192)` bytes
   and those bytes.
   */
  function StaticReply(file: Option<seq<byte>>): (r: Reply)
    ensures file.None? <==> r == ErrorPage(Http404)
    ensures file.Some? ==> r.Success?
    ensures r.Success? ==> file.Some? && r.body <= file.value
    ensures r.Success? ==> |r.body| == Min(|file.value|, ContentBufferSize)
    ensures r.Success? ==> r.headers == StaticHeaders(|r.body|)
  {
    match file
    case None => ErrorPage(Http404)
    case Some(f) =>
      var n := Min(|f|, ContentBufferSize);
      Success(StaticHeaders(n), f[..n])
  }

  /** `get_content` with its read loop; it sends what `StaticReply` describes. */
  method GetContent(file: Option<seq<byte>>) returns (r: Reply)
    ensures r == StaticReply(file)
    ensures r.Success? ==> ParseMessage(r.headers + BytesAsText(r.body)).Some?
  {
    match file
    case None =>
      r := ErrorPage(Http404);
    case Some(f) =>
      var buffer, readSize, gcount := ReadIntoBuffer(f);
      r := Success(StaticHeaders(readSize), buffer[..gcount]);
      StaticResponseReadsBack(buffer[..gcount]);
  }

  /** A file that fits the buffer is sent whole. */
  lemma SmallFileSentWhole(f: seq<byte>)
    requires |f| <= ContentBufferSize
    ensures StaticReply(Some(f)) == Success(StaticHeaders(|f|), f)
  {
  }
}

=== FILE: registry.dfy ===
/**
 The connection registry of the event loop (main.cpp): the `data_set` of
 per-connection contexts that `accept_connect` adds to, `session_handler`
 removes from on hang-up, and the shutdown loop drains. A context is named by
 a connection id (the model's stand-in for the `EventData` pointer) and holds
 its socket descriptor. `accept`, `epoll_ctl`, `shutdown` and `close` are not
 modelled; whether `accept` and `epoll_ctl` succeed is part of each event,
 and the descriptors a step shuts down and closes are part of its result.
 */
module Registry {
  import opened Text

  type Events = bv32

  const EPOLLIN: Events := 0x001
  const EPOLLERR: Events := 0x008
  const EPOLLHUP: Events := 0x010
  const EPOLLRDHUP: Events := 0x2000

  type ConnId = nat
  type Fd = nat

  /** The contexts in `data_set`, and the id the next accepted connection gets. */
  datatype Registry = Registry(conns: map<ConnId, Fd>, next: ConnId)

  /** Ids are only handed out once, and no two contexts share a socket. */
  predicate Valid(r: Registry)
  {
    && (forall id :: id in r.conns ==> id < r.next)
    && (forall a, b :: a in r.conns && b in r.conns && r.conns[a] == r.conns[b] ==> a == b)
  }

  /** One event `epoll_wait` delivers, with the outcome of the system calls its handler makes. */
  datatype Event =
    | ListenerReady(events: Events, accepted: Option<Fd>, addOk: bool)
      // on a listening socket: `accept` (None when it fails), then `EPOLL_CTL_ADD`
    | ConnectionReady(id: ConnId, events: Events, delOk: bool)
      // on a connection: `EPOLL_CTL_DEL` on hang-up

  /**
   An event the loop can receive: only registered connections report
   events, and `accept` never returns a descriptor that is still open.
   */
  predicate Deliverable(r: Registry, e: Event)
  {
    match e
    case ListenerReady(_, accepted, _) =>
      accepted.Some? ==> forall id :: id in r.conns ==> r.conns[id] != accepted.value
    case ConnectionReady(id, _, _) => id in r.conns
  }

  /**
   The registry after a handler, the sockets it shut down or closed in
   order, and the connection whose request it handed to `do_session`.
   */
  datatype StepResult = StepResult(reg: Registry, closed: seq<Fd>, served: Option<ConnId>)

  predicate HangsUp(events: Events) { events & (EPOLLHUP | EPOLLRDHUP) != 0 }

  /** `accept_connect` on a listener event. */
  function Accept(r: Registry, events: Events, accepted: Option<Fd>, addOk: bool): (s: StepResult)
    ensures s.reg.next == r.next || s.reg.next == r.next + 1
    ensures s.reg.conns.Keys <= r.conns.Keys + {r.next}
  {
    if events & EPOLLIN == 0 then StepResult(r, [], None)
    else match accepted
      // the context gets descriptor -1, so `EPOLL_CTL_ADD` fails and nothing is closed
      case None => StepResult(r, [], None)
      case Some(fd) =>
        if addOk then StepResult(Registry(r.conns[r.next := fd], r.next + 1), [], None)
        else StepResult(r, [fd], None)
  }

  /** `session_handler` on a connection event: hang-up first, then error, then readable. */
  function Handle(r: Registry, id: ConnId, events: Events, delOk: bool): (s: StepResult)
    requires id in r.conns
    ensures s.reg.next == r.next && s.reg.conns.Keys <= r.conns.Keys
  {
    if HangsUp(events) then
      if delOk then StepResult(Registry(r.conns - {id}, r.next), [r.conns[id]], None)
      else StepResult(r, [], None)
    else if events & EPOLLERR != 0 then StepResult(r, [], None)
    else if events & EPOLLIN != 0 then StepResult(r, [], Some(id))
    else StepResult(r, [], None)
  }

  /** The loop's dispatch: a listener event goes to `accept_connect`, a connection event to `session_handler`. */
  function Step(r: Registry, e: Event): (s: StepResult)
    requires Deliverable(r, e)
    ensures s.served.Some? ==> e.ConnectionReady? && s.served.value == e.id
    ensures e.ListenerReady? ==> s.reg.conns.Keys <= r.conns.Keys + {r.next}
    ensures e.ConnectionReady? ==> s.reg.conns.Keys <= r.conns.Keys && s.reg.next == r.next
  {
    match e
    case ListenerReady(events, accepted, addOk) => Accept(r, events, accepted, addOk)
    case ConnectionReady(id, events, delOk) => Handle(r, id, events, delOk)
  }

  /**
   Accepting adds exactly one new context, under a fresh id and with the
   accepted socket, when `accept` and `EPOLL_CTL_ADD` both succeed; otherwise
   the registry is unchanged and an accepted socket is closed.
   */
  lemma AcceptInsertsOne(r: Registry, events: Events, accepted: Option<Fd>, addOk: bool)
    requires Valid(r)
    ensures var s := Accept(r, events, accepted, addOk);
      && (events & EPOLLIN != 0 && accepted.Some? && addOk <==> s.reg.conns.Keys == r.conns.Keys + {r.next})
      && (events & EPOLLIN != 0 && accepted.Some? && addOk ==>
            r.next !in r.conns && s.reg.conns == r.conns[r.next := accepted.value] && s.closed == [])
      && (!(events & EPOLLIN != 0 && accepted.Some? && addOk) ==> s.reg == r)
      && (events & EPOLLIN != 0 && accepted.Some? && !addOk ==> s.closed == [accepted.value])
  {
    assert r.next !in r.conns.Keys;
    assert r.next in r.conns.Keys + {r.next};
  }

  /**
   A hang-up removes the connection's context, and shuts down and closes its
   socket, exactly when `EPOLL_CTL_DEL` succeeds; nothing else changes.
   */
  lemma HangupRemovesOnce(r: Registry, id: ConnId, events: Events, delOk: bool)
    requires id in r.conns && HangsUp(events)
    ensures var s := Handle(r, id, events, delOk);
      && (delOk <==> id !in s.reg.conns)
      && (delOk ==> s.reg.conns.Keys == r.conns.Keys - {id} && s.closed == [r.conns[id]])
      && (!delOk ==> s.reg == r && s.closed == [])
      && (forall other :: other in s.reg.conns ==> other in r.conns && s.reg.conns[other] == r.conns[other])
  {
  }

  /**
   Error and readable events (and unknown ones) leave the registry alone and
   close nothing; the request is served exactly when the connection is
   readable with neither hang-up nor error reported.
   */
  lemma NoHangupNoChange(r: Registry, id: ConnId, events: Events, delOk: bool)
    requires id in r.conns && !HangsUp(events)
    ensures var s := Handle(r, id, events, delOk);
      s.reg == r && s.closed == []
  {
  }

  lemma ServedOnlyWhenReadable(r: Registry, id: ConnId, events: Events, delOk: bool)
    requires id in r.conns
    ensures var s := Handle(r, id, events, delOk);
      && (s.served.Some? <==> events & EPOLLIN != 0 && events & EPOLLERR == 0 && !HangsUp(events))
      && (s.served.Some? ==> s.served.value == id)
  {
  }

  /** Every step keeps ids fresh and sockets distinct. */
  lemma StepPreservesValid(r: Registry, e: Event)
    requires Valid(r) && Deliverable(r, e)
    ensures Valid(Step(r, e).reg)
  {
    var s := Step(r, e);
    if e.ListenerReady? && s.reg != r {
      var fd := e.accepted.value;
      assert s.reg.conns == r.conns[r.next := fd];
      forall a, b | a in s.reg.conns && b in s.reg.conns && s.reg.conns[a] == s.reg.conns[b]
        ensures a == b
      {
        if a != r.next && b != r.next {
          assert r.conns[a] == r.conns[b];
        }
      }
    }
  }

  // ---------------------------------------------------------------------
  // Runs of events

  /** Events the loop can receive one after the other from `r`. */
  predicate Deliverables(r: Registry, es: seq<Event>)
    decreases |es|
  {
    es == [] || (Deliverable(r, es[0]) && Deliverables(Step(r, es[0]).reg, es[1..]))
  }

  /** The registry after a run, every socket closed and every connection served on the way, in order. */
  datatype RunResult = RunResult(reg: Registry, closed: seq<Fd>, served: seq<ConnId>)

  function ServedList(s: StepResult): seq<ConnId>
  {
    if s.served.Some? then [s.served.value] else []
  }

  /** The registry after handling the events in order. */
  function Run(r: Registry, es: seq<Event>): (s: RunResult)
    requires Deliverables(r, es)
    ensures r.next <= s.reg.next
    decreases |es|
  {
    if es == [] then RunResult(r, [], [])
    else
      var first := Step(r, es[0]);
      var rest := Run(first.reg, es[1..]);
      RunResult(rest.reg, first.closed + rest.closed, ServedList(first) + rest.served)
  }

  /** A valid registry stays valid over any run. */
  lemma {:induction false} RunPreservesValid(r: Registry, es: seq<Event>)
    requires Valid(r) && Deliverables(r, es)
    ensures Valid(Run(r, es).reg)
    decreases |es|
  {
    if es != [] {
      StepPreservesValid(r, es[0]);
      RunPreservesValid(Step(r, es[0]).reg, es[1..]);
    }
  }

  /**
   A context removed from the registry never comes back: the id of a
   connection that was handed out and is no longer registered stays
   unregistered whatever events follow, so each connection is removed at
   most once.
   */
  lemma {:induction false} RemovedStaysRemoved(r: Registry, es: seq<Event>, id: ConnId)
    requires Deliverables(r, es)
    requires id < r.next && id !in r.conns
    ensures id !in Run(r, es).reg.conns
    decreases |es|
  {
    if es != [] {
      var first := Step(r, es[0]);
      assert id < first.reg.next && id !in first.reg.conns;
      RemovedStaysRemoved(first.reg, es[1..], id);
    }
  }

  // ---------------------------------------------------------------------
  // Shutdown

  /**
   The loop after `end_loop` is set: while `data_set` is not empty, take a
   context, shut down and close its socket, delete it and erase it. It ends
   with an empty registry, having closed each registered socket exactly once.
   */
  method Shutdown(r: Registry) returns (final: Registry, order: seq<ConnId>, closed: seq<Fd>)
    ensures final.conns == map[] && final.next == r.next
    ensures |order| == |closed| == |r.conns|
    ensures forall id :: id in r.conns <==> id in order
    ensures forall i, j :: 0 <= i < j < |order| ==> order[i] != order[j]
    ensures forall i :: 0 <= i < |order| ==> order[i] in r.conns && closed[i] == r.conns[order[i]]
  {
    final := r;
    order, closed := [], [];
    while final.conns != map[]
      invariant final.next == r.next
      invariant final.conns.Keys <= r.conns.Keys
      invariant forall id :: id in final.conns ==> final.conns[id] == r.conns[id]
      invariant forall id :: id in r.conns <==> id in final.conns || id in order
      invariant forall i :: 0 <= i < |order| ==> order[i] in r.conns && order[i] !in final.conns
      invariant forall i, j :: 0 <= i < j < |order| ==> order[i] != order[j]
      invariant |order| == |closed| && |order| + |final.conns| == |r.conns|
      invariant forall i :: 0 <= i < |order| ==> closed[i] == r.conns[order[i]]
      decreases |final.conns|
    {
      var id :| id in final.conns;
      closed := closed + [final.conns[id]];
      order := order + [id];
      final := Registry(final.conns - {id}, final.next);
    }
  }
}

=== FILE: request.dfy ===
/**
 The request-line scan of `do_session` (main.cpp): the method token, the
 white space after it, the URL token, and the split of a GET URL at its first
 `?`. The scan works on the whole `char buffer[1024]` that `readline` filled:
 the line it stored, its NUL, and whatever the array held after that, because
 the copy loops stop only at white space or at the end of the array.

 Two copy loops write past their arrays in the source. Each is modelled as
 written (the indices it writes, with an input that overruns) and as
 corrected (the copy stops one short of the array's size so that the
 terminator fits); the rest of the model uses the corrected copies.
 */
module Request {
  import opened Text

  const BufferSize := 1024
  const MethodCapacity := 32
  const UrlCapacity := 255

  /** End of the run of non-white-space characters that starts at `from`. */
  function TokenEnd(buf: string, from: nat): (end: nat)
    requires from <= |buf|
    ensures from <= end <= |buf|
    ensures forall k :: from <= k < end ==> !IsSpace(buf[k])
    ensures end < |buf| ==> IsSpace(buf[end])
    decreases |buf| - from
  {
    if from == |buf| || IsSpace(buf[from]) then from else TokenEnd(buf, from + 1)
  }

  /** A run of non-white-space characters that ends at white space or at the end is the whole token. */
  lemma TokenEndAt(buf: string, from: nat, end: nat)
    requires from <= end <= |buf|
    requires forall k :: from <= k < end ==> !IsSpace(buf[k])
    requires end < |buf| ==> IsSpace(buf[end])
    ensures TokenEnd(buf, from) == end
  {
  }

  // ---------------------------------------------------------------------
  // The method token: `while (!isspace(buffer[i_buf]) && i_buf < sizeof(buffer)) method[index++] = …`

  /** Where the method scan leaves `i_buf`: the end of the leading non-white-space run. */
  function MethodEnd(buf: string): (end: nat)
    ensures end <= |buf|
    ensures forall k :: 0 <= k < end ==> !IsSpace(buf[k])
    ensures end < |buf| ==> IsSpace(buf[end])
  {
    TokenEnd(buf, 0)
  }

  /** As written: the loop stores the whole run into `method[32]`, then writes the NUL at `method[index]`. */
  function MethodCopyAsWritten(buf: string): string
  {
    buf[..MethodEnd(buf)]
  }

  /** Every index the as-written copy writes (the characters and the terminator) lies inside `method[32]`. */
  predicate MethodCopyInBounds(buf: string)
  {
    |MethodCopyAsWritten(buf)| < MethodCapacity
  }

  /** A 40-character first token makes the as-written copy write `method[32]` … `method[40]`. */
  lemma MethodCopyOverflows()
    ensures var buf := seq(40, _ => 'A') + seq(BufferSize - 40, _ => ' ');
      |buf| == BufferSize && !MethodCopyInBounds(buf)
  {
    var buf := seq(40, _ => 'A') + seq(BufferSize - 40, _ => ' ');
    assert buf[40] == ' ';
    TokenEndAt(buf, 0, 40);
  }

  /**
   Corrected: the scan still runs to the end of the token, but stores at
   most `sizeof(method) - 1` characters, so the terminator fits.
   */
  function MethodCopy(buf: string): (m: string)
    ensures |m| < MethodCapacity
    ensures |m| == Min(MethodEnd(buf), MethodCapacity - 1) && m == buf[..|m|]
  {
    buf[..Min(MethodEnd(buf), MethodCapacity - 1)]
  }

  /** The method as `strcasecmp` and `exec_cgi` see it: the stored characters up to the first NUL. */
  function MethodName(buf: string): string
  {
    CString(MethodCopy(buf))
  }

  predicate IsGet(verb: string) { EqualsIgnoreCase(verb, "GET") }
  predicate IsPost(verb: string) { EqualsIgnoreCase(verb, "POST") }

  /** The C string of a prefix: cut at the first NUL if it comes early enough, else the whole prefix. */
  lemma CStringOfPrefix(s: string, k: nat)
    requires k <= |s|
    ensures CString(s[..k]) == if |CString(s)| <= k then CString(s) else s[..k]
  {
    var c := CString(s);
    var p := s[..k];
    var r := CString(p);
    if |c| <= k {
      CStringUnique(p, c);
    } else {
      assert '\0' !in p by {
        assert forall j :: 0 <= j < k ==> p[j] == c[j];
      }
      CStringUnique(p, p);
    }
  }

  /** A NUL-free prefix that is the whole array or is followed by NUL is the array's C string. */
  lemma CStringUnique(s: string, r: string)
    requires |r| <= |s| && r == s[..|r|] && '\0' !in r
    requires |r| < |s| ==> s[|r|] == '\0'
    ensures CString(s) == r
  {
    var c := CString(s);
    assert forall j :: 0 <= j < |r| ==> r[j] == s[j];
    assert forall j :: 0 <= j < |c| ==> c[j] == s[j];
  }

  /**
   Bounding the copy changes nothing the router can observe: the bounded
   method is GET or POST exactly when the unbounded one is, and then both
   name the same method.
   */
  lemma BoundedMethodAgrees(buf: string)
    ensures IsGet(MethodName(buf)) <==> IsGet(CString(MethodCopyAsWritten(buf)))
    ensures IsPost(MethodName(buf)) <==> IsPost(CString(MethodCopyAsWritten(buf)))
    ensures IsGet(MethodName(buf)) || IsPost(MethodName(buf)) ==>
      MethodName(buf) == CString(MethodCopyAsWritten(buf))
    ensures MethodCopyInBounds(buf) ==> MethodCopy(buf) == MethodCopyAsWritten(buf)
  {
    var full := MethodCopyAsWritten(buf);
    var k := Min(MethodEnd(buf), MethodCapacity - 1);
    assert MethodCopy(buf) == full[..k];
    CStringOfPrefix(full, k);
  }

  // ---------------------------------------------------------------------
  // The URL token: `while (!isspace(buffer[i_buf]) && i_buf < sizeof(buffer) && index < sizeof(url_buf))`

  /** Where the URL copy starts: after the method and the white space that follows it. */
  function UrlStart(buf: string): (start: nat)
    ensures MethodEnd(buf) <= start <= |buf|
    ensures forall k :: MethodEnd(buf) <= k < start ==> IsSpace(buf[k])
    ensures start < |buf| ==> !IsSpace(buf[start])
  {
    SpacesEnd(buf, MethodEnd(buf))
  }

  /** The characters a copy bounded by `limit` stores from the URL token. */
  function UrlTokenPrefix(buf: string, limit: nat): (u: string)
    ensures var s := UrlStart(buf);
      && |u| == Min(TokenEnd(buf, s) - s, limit)
      && s + |u| <= |buf| && u == buf[s..s + |u|]
    ensures forall k :: 0 <= k < |u| ==> !IsSpace(u[k])
  {
    var s := UrlStart(buf);
    var u := buf[s..Min(TokenEnd(buf, s), s + limit)];
    assert forall k :: 0 <= k < |u| ==> u[k] == buf[s + k];
    u
  }

  /** As written: up to `sizeof(url_buf)` characters are stored, then the NUL goes to `url_buf[index]`. */
  function UrlCopyAsWritten(buf: string): string
  {
    UrlTokenPrefix(buf, UrlCapacity)
  }

  /** Every index the as-written URL copy writes, terminator included, lies inside `url_buf[255]`. */
  predicate UrlCopyInBounds(buf: string)
  {
    |UrlCopyAsWritten(buf)| < UrlCapacity
  }

  /** `GET ` followed by a 255-character path fills `url_buf` and puts the terminator at `url_buf[255]`. */
  lemma UrlCopyOverflows()
    ensures var buf := "GET " + seq(255, _ => 'a') + seq(BufferSize - 259, _ => ' ');
      |buf| == BufferSize && !UrlCopyInBounds(buf)
  {
    var buf := "GET " + seq(255, _ => 'a') + seq(BufferSize - 259, _ => ' ');
    assert buf[3] == ' ' && buf[4] == 'a';
    TokenEndAt(buf, 0, 3);
    assert SpacesEnd(buf, 3) == 4;
    assert buf[259] == ' ';
    TokenEndAt(buf, 4, 259);
  }

  /** Corrected: at most `sizeof(url_buf) - 1` characters are stored, so the terminator fits. */
  function UrlCopy(buf: string): (u: string)
    ensures |u| < UrlCapacity
  {
    UrlTokenPrefix(buf, UrlCapacity - 1)
  }

  /** The corrected copy agrees with the as-written one whenever that one stays in bounds. */
  lemma BoundedUrlAgrees(buf: string)
    ensures UrlCopyInBounds(buf) ==> UrlCopy(buf) == UrlCopyAsWritten(buf)
    ensures UrlCopy(buf) <= UrlCopyAsWritten(buf)
  {
  }

  /** `url.append(url_buf)`: the stored characters up to the first NUL. */
  function Url(buf: string): string
  {
    CString(UrlCopy(buf))
  }

  /** A token of a request line that both copies keep whole: non-empty, without white space or NUL. */
  predicate PlainToken(t: string, capacity: nat)
  {
    0 < |t| < capacity && forall k :: 0 <= k < |t| ==> !IsSpace(t[k]) && t[k] != '\0'
  }

  /**
   For a request line `<method> <url> …` whose two tokens fit their arrays,
   the scan recovers exactly the method and the URL, whatever follows.
   */
  lemma RequestLineTokens(m: string, u: string, rest: string)
    requires PlainToken(m, MethodCapacity) && PlainToken(u, UrlCapacity)
    requires |m + " " + u + " " + rest| == BufferSize
    ensures var buf := m + " " + u + " " + rest;
      MethodName(buf) == m && Url(buf) == u
  {
    var buf := m + " " + u + " " + rest;
    var s := |m| + 1;
    assert forall k :: 0 <= k < |m| ==> buf[k] == m[k];
    assert forall k :: 0 <= k < |u| ==> buf[s + k] == u[k];
    assert buf[|m|] == ' ' && buf[s + |u|] == ' ';
    TokenEndAt(buf, 0, |m|);
    assert MethodCopy(buf) == m;
    CStringUnique(m, m);
    assert SpacesEnd(buf, s) == s;
    assert UrlStart(buf) == s;
    TokenEndAt(buf, s, s + |u|);
    assert UrlCopy(buf) == buf[s..s + |u|] == u;
    CStringUnique(u, u);
  }

  // ---------------------------------------------------------------------
  // The query split and the CGI candidacy it sets

  /** The request target after the method checks: path part, query string (with its `?`), CGI candidacy. */
  datatype Target = Target(path: string, query: string, cgi: bool)

  /** POST sets candidacy; a GET URL holding `?` is split at the first `?`, which also sets it. */
  function SplitTarget(verb: string, url: string): (t: Target)
    ensures IsPost(verb) ==> t.cgi
    ensures IsGet(verb) && '?' in url ==>
      && t.path + t.query == url
      && |t.query| > 0 && t.query[0] == '?'
      && '?' !in t.path
      && t.cgi
    ensures IsGet(verb) && '?' !in url ==> t == Target(url, "", false)
    ensures !IsGet(verb) ==> t.path == url && t.query == ""
  {
    var cgi := IsPost(verb);
    if IsGet(verb) then
      match IndexOf(url, '?')
      case Some(p) =>
        assert url[..p] + url[p..] == url;
        Target(url[..p], url[p..], true)
      case None => Target(url, "", cgi)
    else Target(url, "", cgi)
  }
}

=== FILE: response.dfy ===
/**
 The canned error responses: the status table, `assemble`, which builds a
 complete header block and HTML body for one status, and the eight wrappers
 that send `assemble` of their own status (response.cpp). The socket send is
 left out: a wrapper's result is the text it hands to `send`.
 */
module Response {
  import opened Text
  import opened Wire

  /** The statuses the table knows (`HTTP_STATUS_400` … `HTTP_STATUS_503`). */
  datatype StatusCode = Http400 | Http401 | Http403 | Http404 | Http500 | Http501 | Http502 | Http503

  function Code(c: StatusCode): nat
  {
    match c
    case Http400 => 400
    case Http401 => 401
    case Http403 => 403
    case Http404 => 404
    case Http500 => 500
    case Http501 => 501
    case Http502 => 502
    case Http503 => 503
  }

  /** The `HTTP_STATUS` table. */
  function StatusText(c: StatusCode): string
  {
    match c
    case Http400 => "400 Bad request"
    case Http401 => "401 Access denied"
    case Http403 => "403 Forbidden"
    case Http404 => "404 Not found"
    case Http500 => "500 Internal server error"
    case Http501 => "501 not implemented"
    case Http502 => "502 Bad Gateway"
    case Http503 => "503 Service unavailable"
  }

  const ErrorContentType := "Content-Type: " + "text/html; " + "charset=utf8"
  const TitleOpen := "<html><head>" + "<title>"
  const TitleClose := "</title></head>" + "<body><center>" + "<h1>"
  const PageClose := "</h1></center>" + "<hr><center>" + "tinyhttpd/0.1.0" + "</center></body>" + "</html>\r\n"

  /** The HTML page `assemble` sends: the status text as title and as heading. */
  function ErrorBody(c: StatusCode): string
  {
    TitleOpen + StatusText(c) + TitleClose + StatusText(c) + PageClose
  }

  /** The header lines of an error response announcing a body of `length` characters. */
  function ErrorHeaderLines(c: StatusCode, length: nat): seq<string>
  {
    ["HTTP/1.0 " + StatusText(c), ServerHeader, ErrorContentType, "Content-Length: " + Decimal(length)]
  }

  /** `assemble(status_code)`: the header block followed by the body. */
  function Assemble(c: StatusCode): (r: string)
    ensures r == HeaderBlock(ErrorHeaderLines(c, |ErrorBody(c)|)) + ErrorBody(c)
  {
    var headers := "HTTP/1.0 " + StatusText(c) + CrLf + ServerHeader + CrLf + ErrorContentType + CrLf;
    var body := TitleOpen + StatusText(c) + TitleClose + StatusText(c) + PageClose;
    var r := headers + "Content-Length: " + Decimal(|body|) + CrLf + CrLf + body;
    JoinFourLines("HTTP/1.0 " + StatusText(c), ServerHeader, ErrorContentType, "Content-Length: " + Decimal(|body|));
    r
  }

  lemma JoinFourLines(a: string, b: string, c: string, d: string)
    ensures JoinLines([a, b, c, d]) == a + CrLf + b + CrLf + c + CrLf + d + CrLf
  {
    assert [a, b, c, d][1..] == [b, c, d];
    assert [b, c, d][1..] == [c, d];
    assert [c, d][1..] == [d];
    assert [d][1..] == [];
    calc {
      JoinLines([a, b, c, d]);
      a + CrLf + JoinLines([b, c, d]);
      a + CrLf + (b + CrLf + JoinLines([c, d]));
      a + CrLf + (b + CrLf + (c + CrLf + JoinLines([d])));
      a + CrLf + (b + CrLf + (c + CrLf + (d + CrLf + JoinLines([]))));
      a + CrLf + b + CrLf + c + CrLf + d + CrLf;
    }
  }

  /** Each table entry is its own three-digit code, a space, and a reason without CR. */
  lemma StatusTextStartsWithCode(c: StatusCode)
    ensures |StatusText(c)| > 4
    ensures StatusText(c)[..3] == Decimal(Code(c)) && StatusText(c)[3] == ' '
    ensures '\r' !in StatusText(c)
  {
    StatusTextShape(c);
    StatusTextCode(c);
  }

  lemma StatusTextShape(c: StatusCode)
    ensures |StatusText(c)| > 4 && StatusText(c)[3] == ' ' && '\r' !in StatusText(c)
  {
    EntryFacts(c);
  }

  /** The facts about one table entry, established one entry at a time. */
  predicate EntryShape(c: StatusCode)
  {
    var t := StatusText(c);
    && |t| > 4 && t[3] == ' ' && '\r' !in t
    && t[0] == DigitChar(Code(c) / 100)
    && t[1] == DigitChar(Code(c) / 10 % 10)
    && t[2] == DigitChar(Code(c) % 10)
    && LeadOnlyAtStart(t)
  }

  /**
   Every entry has the shape above. Each entry is checked by a lemma of its
   own, so that the verifier unfolds one string literal at a time.
   */
  lemma EntryFacts(c: StatusCode)
    ensures EntryShape(c)
  {
    match c
    case Http400 => Entry400();
    case Http401 => Entry401();
    case Http403 => Entry403();
    case Http404 => Entry404();
    case Http500 => Entry500();
    case Http501 => Entry501();
    case Http502 => Entry502();
    case Http503 => Entry503();
  }

  lemma Entry400()
    ensures EntryShape(Http400)
  {
  }

  lemma Entry401()
    ensures EntryShape(Http401)
  {
  }

  lemma Entry403()
    ensures EntryShape(Http403)
  {
  }

  lemma Entry404()
    ensures EntryShape(Http404)
  {
  }

  lemma Entry500()
    ensures EntryShape(Http500)
  {
  }

  lemma Entry501()
    ensures EntryShape(Http501)
  {
  }

  lemma Entry502()
    ensures EntryShape(Http502)
  {
  }

  lemma Entry503()
    ensures EntryShape(Http503)
  {
  }


  lemma StatusTextCode(c: StatusCode)
    ensures |StatusText(c)| >= 3 && StatusText(c)[..3] == Decimal(Code(c))
  {
    Decimal3(Code(c));
    StatusTextDigits(c);
    var t := StatusText(c);
    assert t[..3] == [t[0], t[1], t[2]];
  }

  lemma StatusTextDigits(c: StatusCode)
    ensures |StatusText(c)| >= 3
    ensures StatusText(c)[0] == DigitChar(Code(c) / 100)
    ensures StatusText(c)[1] == DigitChar(Code(c) / 10 % 10)
    ensures StatusText(c)[2] == DigitChar(Code(c) % 10)
  {
    EntryFacts(c);
  }

  /** The header lines of an error response are non-empty and free of CR. */
  lemma ErrorHeaderLinesWellFormed(c: StatusCode, n: nat)
    ensures HeaderLines(ErrorHeaderLines(c, n))
  {
    StatusTextStartsWithCode(c);
    FixedLinesFreeOfCr();
    assert '\r' !in "HTTP/1.0 ";
    var ls := ErrorHeaderLines(c, n);
    assert ls[3] == "Content-Length: " + Decimal(n);
  }

  lemma FixedLinesFreeOfCr()
    ensures '\r' !in ServerHeader && '\r' !in ErrorContentType && '\r' !in "Content-Length: "
  {
    assert '\r' !in "Content-Type: " && '\r' !in "text/html; " && '\r' !in "charset=utf8";
  }

  /** The code an error or success response announces on its status line. */
  function ResponseCode(r: string): Option<nat>
  {
    match ParseMessage(r)
    case Some(m) => if |m.lines| > 0 then StatusCodeOf(m.lines[0]) else None
    case None => None
  }

  /** The status line of `assemble(c)` reads back as the code of `c`. */
  lemma StatusLineCode(c: StatusCode)
    ensures StatusCodeOf("HTTP/1.0 " + StatusText(c)) == Some(Code(c))
  {
    var line := "HTTP/1.0 " + StatusText(c);
    StatusTextStartsWithCode(c);
    assert line[9..12] == StatusText(c)[..3];
    DecimalRoundTrip(Code(c));
  }

  /**
   Reading `assemble(c)` back: the first blank line ends exactly the header
   block, what follows it is the whole body, the status line carries the code
   of `c` followed by the fixed server and content-type lines, and the
   announced `Content-Length` is the body's exact length.
   */
  lemma AssembleReadsBack(c: StatusCode)
    ensures ParseMessage(Assemble(c)).Some?
    ensures var m := ParseMessage(Assemble(c)).value;
      && m.body == ErrorBody(c)
      && |m.lines| == 4
      && m.lines[0] == "HTTP/1.0 " + StatusText(c)
      && m.lines[1] == ServerHeader
      && m.lines[2] == ErrorContentType
      && StatusCodeOf(m.lines[0]) == Some(Code(c))
      && ContentLengthOf(m.lines) == Some(|m.body|)
    ensures ResponseCode(Assemble(c)) == Some(Code(c))
  {
    var n := |ErrorBody(c)|;
    var ls := ErrorHeaderLines(c, n);
    ErrorHeaderLinesWellFormed(c, n);
    ParseHeaderBlock(ls, ErrorBody(c));
    StatusLineCode(c);
    ErrorLinesContentLength(c, n);
  }

  lemma ErrorLinesContentLength(c: StatusCode, n: nat)
    ensures ContentLengthOf(ErrorHeaderLines(c, n)) == Some(n)
  {
    var ls := ErrorHeaderLines(c, n);
    assert ls == [ls[0], ls[1], ls[2]] + ["Content-Length: " + Decimal(n)] + [];
    assert ls[0][0] == 'H' && ls[1][0] == 'S' && ls[2][8] == 'T';
    ContentLengthField([ls[0], ls[1], ls[2]], n, []);
  }

  // ---------------------------------------------------------------------
  // The status text inside the body

  predicate OccursAt(s: string, p: string, i: nat)
  {
    i + |p| <= |s| && s[i..i + |p|] == p
  }

  /** No character that could start a status text (a `4` or a `5`). */
  predicate NoCodeLead(t: string)
  {
    forall k :: 0 <= k < |t| ==> t[k] != '4' && t[k] != '5'
  }

  /**
   A status text starts with `4` or `5` followed by `0`, and no later `4` or
   `5` in it is followed by `0`.
   */
  predicate LeadOnlyAtStart(t: string)
  {
    && |t| >= 2 && (t[0] == '4' || t[0] == '5') && t[1] == '0'
    && forall k :: 0 < k < |t| && (t[k] == '4' || t[k] == '5') ==> k + 1 < |t| && t[k + 1] != '0'
  }

  lemma NoCodeLeadConcat(a: string, b: string)
    requires NoCodeLead(a) && NoCodeLead(b)
    ensures NoCodeLead(a + b)
  {
    assert forall k :: 0 <= k < |a + b| ==> (a + b)[k] == if k < |a| then a[k] else b[k - |a|];
  }

  lemma TemplateFacts()
    ensures NoCodeLead(TitleOpen) && NoCodeLead(TitleClose) && NoCodeLead(PageClose)
  {
    assert NoCodeLead("<html><head>") && NoCodeLead("<title>");
    NoCodeLeadConcat("<html><head>", "<title>");
    assert NoCodeLead("</title></head>") && NoCodeLead("<body><center>") && NoCodeLead("<h1>");
    NoCodeLeadConcat("</title></head>", "<body><center>");
    NoCodeLeadConcat("</title></head>" + "<body><center>", "<h1>");
    var p1, p2, p3, p4, p5 := "</h1></center>", "<hr><center>", "tinyhttpd/0.1.0", "</center></body>", "</html>\r\n";
    assert NoCodeLead(p1) && NoCodeLead(p2) && NoCodeLead(p3) && NoCodeLead(p4) && NoCodeLead(p5);
    NoCodeLeadConcat(p1, p2);
    NoCodeLeadConcat(p1 + p2, p3);
    NoCodeLeadConcat(p1 + p2 + p3, p4);
    NoCodeLeadConcat(p1 + p2 + p3 + p4, p5);
  }

  lemma StatusTextLead(c: StatusCode)
    ensures LeadOnlyAtStart(StatusText(c))
  {
    EntryFacts(c);
  }

  /** Where a text `t` of that shape occurs inside `a + t + b + t + d`, when `a`, `b`, `d` hold no `4`/`5`. */
  lemma {:induction false} OccurrencesBetween(a: string, t: string, b: string, d: string, i: nat)
    requires NoCodeLead(a) && NoCodeLead(b) && NoCodeLead(d) && LeadOnlyAtStart(t)
    requires OccursAt(a + t + b + t + d, t, i)
    ensures i == |a| || i == |a| + |t| + |b|
  {
    var s := a + t + b + t + d;
    var p2 := |a| + |t| + |b|;
    assert s[i] == s[i..i + |t|][0] == t[0];
    assert s[i + 1] == s[i..i + |t|][1] == t[1];
    assert forall j :: 0 <= j < |a| ==> s[j] == a[j];
    assert forall j :: |a| <= j < |a| + |t| ==> s[j] == t[j - |a|];
    assert forall j :: |a| + |t| <= j < p2 ==> s[j] == b[j - |a| - |t|];
    assert forall j :: p2 <= j < p2 + |t| ==> s[j] == t[j - p2];
    assert forall j :: p2 + |t| <= j < |s| ==> s[j] == d[j - p2 - |t|];
  }

  /** The body embeds the status text exactly twice: in `<title>` and in `<h1>`. */
  lemma StatusTextTwiceInBody(c: StatusCode, i: nat)
    ensures OccursAt(ErrorBody(c), StatusText(c), i)
      <==> i == |TitleOpen| || i == |TitleOpen| + |StatusText(c)| + |TitleClose|
  {
    var t := StatusText(c);
    var s := ErrorBody(c);
    var p2 := |TitleOpen| + |t| + |TitleClose|;
    assert s[|TitleOpen|..|TitleOpen| + |t|] == t;
    assert s[p2..p2 + |t|] == t;
    if OccursAt(s, t, i) {
      TemplateFacts();
      StatusTextLead(c);
      OccurrencesBetween(TitleOpen, t, TitleClose, PageClose, i);
    }
  }

  // ---------------------------------------------------------------------
  // The per-status wrappers

  /** `bad_request`. */
  function BadRequest(): (r: string)
    ensures ResponseCode(r) == Some(400)
  {
    AssembleReadsBack(Http400);
    Assemble(Http400)
  }

  /** `access_denied`. */
  function AccessDenied(): (r: string)
    ensures ResponseCode(r) == Some(401)
  {
    AssembleReadsBack(Http401);
    Assemble(Http401)
  }

  /** `forbidden`. */
  function Forbidden(): (r: string)
    ensures ResponseCode(r) == Some(403)
  {
    AssembleReadsBack(Http403);
    Assemble(Http403)
  }

  /** `not_found`. */
  function NotFound(): (r: string)
    ensures ResponseCode(r) == Some(404)
  {
    AssembleReadsBack(Http404);
    Assemble(Http404)
  }

  /** `internal_server_error`. */
  function InternalServerError(): (r: string)
    ensures ResponseCode(r) == Some(500)
  {
    AssembleReadsBack(Http500);
    Assemble(Http500)
  }

  /** `not_implemented`. */
  function NotImplemented(): (r: string)
    ensures ResponseCode(r) == Some(501)
  {
    AssembleReadsBack(Http501);
    Assemble(Http501)
  }

  /** `bad_gateway`. */
  function BadGateway(): (r: string)
    ensures ResponseCode(r) == Some(502)
  {
    AssembleReadsBack(Http502);
    Assemble(Http502)
  }

  /** `service_unavailable`. */
  function ServiceUnavailable(): (r: string)
    ensures ResponseCode(r) == Some(503)
  {
    AssembleReadsBack(Http503);
    Assemble(Http503)
  }

  /**
   What a request handler sends on the socket: one of the canned error
   pages, or a 200 header text (`make_headers()` and what follows it)
   together with the body bytes.
   */
  datatype Reply = ErrorPage(code: StatusCode) | Success(headers: string, body: seq<byte>)
}

=== FILE: router.dfy ===
/**
 The routing half of `do_session` (main.cpp): the method check, path
 resolution against the web root, the `stat64` of the resolved path and the
 choice between the not-implemented and not-found responses, the static file
 server and the CGI executor. The file system is a map from paths to what
 `stat64` reports and what `ifstream` would read; a path absent from the map
 is one `stat64` fails on.
 */
module Router {
  import opened Text
  import opened Request

  type Mode = bv32

  const S_IFMT: Mode := 0xF000
  const S_IFDIR: Mode := 0x4000
  const S_IXUSR: Mode := 0x40
  const S_IXGRP: Mode := 0x8
  const S_IXOTH: Mode := 0x1

  /** One file-system entry: its `st_mode`, and its bytes when it can be opened for reading. */
  datatype Entry = Entry(mode: Mode, contents: Option<seq<byte>>)

  type FileSystem = map<string, Entry>

  predicate IsDirectory(mode: Mode) { mode & S_IFMT == S_IFDIR }

  predicate HasExecBit(mode: Mode) { mode & (S_IXGRP | S_IXUSR | S_IXOTH) != 0 }

  predicate EndsWithSlash(p: string) { |p| > 0 && p[|p| - 1] == '/' }

  /** `webpath`: the web root, then the URL path, then `index.html` when that ends in `/`. */
  function WebPath(webRoot: string, path: string): (p: string)
  {
    var joined := webRoot + path;
    if EndsWithSlash(joined) then joined + "index.html" else joined
  }

  /** The path handed on after `stat64` succeeded: `/index.html` is appended to a directory. */
  function ServedPath(webPath: string, e: Entry): string
  {
    if IsDirectory(e.mode) then webPath + "/index.html" else webPath
  }

  /**
   The resolved path is the web root followed by the URL path, then at most
   the two index rewrites, in that order: nothing else changes it.
   */
  lemma ServedPathShape(webRoot: string, path: string, e: Entry)
    ensures var p := ServedPath(WebPath(webRoot, path), e);
      var slash := if EndsWithSlash(webRoot + path) then "index.html" else "";
      var dir := if IsDirectory(e.mode) then "/index.html" else "";
      p == webRoot + path + slash + dir
  {
  }

  /** The path ends in `index.html`. */
  predicate EndsWithIndex(p: string)
  {
    |p| >= 10 && p[|p| - 10..] == "index.html"
  }

  /**
   Resolution only appends to the web root followed by the URL path. It
   leaves that path as it is exactly when the path does not end in `/` and
   names no directory; otherwise the result names an `index.html`. An entry
   that is not a directory is served under the `stat64` path itself.
   */
  lemma ServedPathResolves(webRoot: string, path: string, e: Entry)
    ensures var j := webRoot + path;
      var p := ServedPath(WebPath(webRoot, path), e);
      && j <= p
      && (p == j <==> !EndsWithSlash(j) && !IsDirectory(e.mode))
      && (EndsWithSlash(j) || IsDirectory(e.mode) ==> EndsWithIndex(p))
      && (!IsDirectory(e.mode) ==> p == WebPath(webRoot, path))
  {
  }

  /** What `do_session` does with one request line. */
  datatype Route =
    | Reject                                        // `readline` read nothing: return -1
    | NotImplemented                                // method other than GET or POST
    | NotFound(path: string)                        // `stat64` failed on the resolved path
    | Static(path: string)                          // `get_content(webpath)`
    | Cgi(path: string, verb: string, query: string)  // `exec_cgi(webpath, method, query_string)`

  /**
   The routing decision for the request buffer `buf` (the `count` characters
   `readline` stored, its NUL, and the rest of the array).
   */
  function RouteRequest(buf: string, count: nat, webRoot: string, fs: FileSystem): (r: Route)
    requires |buf| == BufferSize
    ensures count == 0 <==> r.Reject?
    ensures count > 0 && !IsGet(MethodName(buf)) && !IsPost(MethodName(buf)) ==> r.NotImplemented?
    ensures r.NotFound? ==> r.path !in fs
    ensures r.Static? || r.Cgi? ==> exists w :: w in fs && r.path == ServedPath(w, fs[w])
    ensures r.Static? ==> !IsPost(MethodName(buf))
    ensures r.Cgi? ==> r.verb == MethodName(buf) && (IsGet(r.verb) || IsPost(r.verb))
  {
    if count == 0 then Reject
    else
      var verb := MethodName(buf);
      if !IsGet(verb) && !IsPost(verb) then NotImplemented
      else
        var target := SplitTarget(verb, Url(buf));
        var webPath := WebPath(webRoot, target.path);
        if webPath !in fs then NotFound(webPath)
        else
          var e := fs[webPath];
          var path := ServedPath(webPath, e);
          if target.cgi || HasExecBit(e.mode) then Cgi(path, verb, target.query)
          else Static(path)
  }

  /**
   The routing rules stated against the request's parts: after a GET or POST
   method, a failed `stat64` gives not-found on the resolved path; otherwise
   the route is CGI exactly when the method is POST, the GET URL holds a `?`,
   or the entry has an execute bit, and static otherwise, on the path the
   index rewrites produce.
   */
  lemma RouteRules(buf: string, count: nat, webRoot: string, fs: FileSystem)
    requires |buf| == BufferSize && count > 0
    requires IsGet(MethodName(buf)) || IsPost(MethodName(buf))
    ensures var verb := MethodName(buf);
      var url := Url(buf);
      var target := SplitTarget(verb, url);
      var w := WebPath(webRoot, target.path);
      var r := RouteRequest(buf, count, webRoot, fs);
      && (w !in fs <==> r.NotFound?)
      && (w !in fs ==> r.path == w)
      && (w in fs ==>
            && r.path == ServedPath(w, fs[w])
            && (r.Cgi? <==> IsPost(verb) || (IsGet(verb) && '?' in url) || HasExecBit(fs[w].mode))
            && (r.Static? <==> !r.Cgi?))
  {
  }

  /** For a method other than GET or POST nothing after it in the line matters. */
  lemma NotImplementedWhateverFollows(buf1: string, buf2: string, count: nat, root1: string, root2: string, fs1: FileSystem, fs2: FileSystem)
    requires |buf1| == BufferSize && |buf2| == BufferSize && count > 0
    requires MethodEnd(buf1) == MethodEnd(buf2) && buf1[..MethodEnd(buf1)] == buf2[..MethodEnd(buf2)]
    requires !IsGet(MethodName(buf1)) && !IsPost(MethodName(buf1))
    ensures RouteRequest(buf1, count, root1, fs1) == RouteRequest(buf2, count, root2, fs2) == NotImplemented
  {
    assert MethodCopy(buf1) == MethodCopy(buf2);
  }
}

=== FILE: session.dfy ===
/**
 `do_session` (main.cpp) end to end: the request line is routed, and the
 route is answered by the 501 or 404 page, by `get_content`, or by
 `exec_cgi`. Besides the reply, the model records how many header lines
 after the request line were read from the socket and whether a CGI process
 was started.
 */
module Session {
  import opened Text
  import opened Wire
  import opened Request
  import opened Response
  import Router
  import opened Cgi
  import opened Content

  /** `-1` (nothing was read), or the reply sent, the header lines consumed, and whether a child was started. */
  datatype Outcome = Closed | Replied(reply: Reply, consumed: nat, spawned: bool)

  /** What `ifstream::open` finds at `path`. */
  function OpenFile(fs: Router.FileSystem, path: string): Option<seq<byte>>
  {
    if path in fs then fs[path].contents else None
  }

  /**
   `do_session`: `buf` is the request buffer holding the `count` characters
   of the request line, `lines` the header lines `readline` would return
   after it, `run` what the CGI's system calls and script produce.
   */
  function DoSession(buf: string, count: nat, lines: seq<string>, webRoot: string, fs: Router.FileSystem, run: CgiRun): (o: Outcome)
    requires |buf| == BufferSize
    ensures count == 0 <==> o.Closed?
    ensures o.Replied? && o.spawned ==> IsGet(MethodName(buf)) || IsPost(MethodName(buf))
    ensures o.Replied? && o.spawned ==> run.pipesOk && run.forkOk && o.reply.Success?
    ensures o.Replied? && o.reply.Success? ==> MakeHeaders() <= o.reply.headers
  {
    match Router.RouteRequest(buf, count, webRoot, fs)
    case Reject => Closed
    case NotImplemented => Replied(ErrorPage(Http501), 0, false)
    case NotFound(_) => Replied(ErrorPage(Http404), DrainEnd(lines, 0), false)
    case Static(path) =>
      Replied(StaticReply(OpenFile(fs, path)), 0, false)
    case Cgi(_, verb, _) =>
      var c := ExecCgi(verb, lines, run);
      Replied(c.reply, c.consumed, c.spawned)
  }

  /** A method other than GET or POST is answered with 501 and nothing more is read. */
  lemma UnknownMethod(buf: string, count: nat, lines: seq<string>, webRoot: string, fs: Router.FileSystem, run: CgiRun)
    requires |buf| == BufferSize && count > 0
    requires !IsGet(MethodName(buf)) && !IsPost(MethodName(buf))
    ensures DoSession(buf, count, lines, webRoot, fs, run) == Replied(ErrorPage(Http501), 0, false)
  {
  }

  /** A request line `<method> <url> …` with plain tokens. */
  function RequestBuffer(m: string, u: string, rest: string): string
  {
    m + " " + u + " " + rest
  }

  /**
   A GET of a path `stat64` fails on is answered with 404 after the header
   lines up to the blank line have been read.
   */
  lemma MissingFile(u: string, rest: string, count: nat, lines: seq<string>, webRoot: string, fs: Router.FileSystem, run: CgiRun)
    requires PlainToken(u, UrlCapacity) && '?' !in u && count > 0
    requires |RequestBuffer("GET", u, rest)| == BufferSize
    requires Router.WebPath(webRoot, u) !in fs
    ensures DoSession(RequestBuffer("GET", u, rest), count, lines, webRoot, fs, run)
      == Replied(ErrorPage(Http404), DrainEnd(lines, 0), false)
  {
    GetToken();
    RequestLineTokens("GET", u, rest);
  }

  /**
   A GET or POST whose resolved path `stat64` fails on is answered with 404,
   with or without a query, once the header lines up to the blank line have
   been read; no process is started.
   */
  lemma MissingPathAnyMethod(buf: string, count: nat, lines: seq<string>, webRoot: string, fs: Router.FileSystem, run: CgiRun)
    requires |buf| == BufferSize && count > 0
    requires IsGet(MethodName(buf)) || IsPost(MethodName(buf))
    requires Router.WebPath(webRoot, SplitTarget(MethodName(buf), Url(buf)).path) !in fs
    ensures DoSession(buf, count, lines, webRoot, fs, run) == Replied(ErrorPage(Http404), DrainEnd(lines, 0), false)
  {
  }

  /**
   Every request routed to the static server, whatever the letter case of
   its method, is answered by `get_content` on the served path, and no
   header line is read.
   */
  lemma StaticAnyRequest(buf: string, count: nat, lines: seq<string>, webRoot: string, fs: Router.FileSystem, run: CgiRun)
    requires |buf| == BufferSize
    requires Router.RouteRequest(buf, count, webRoot, fs).Static?
    ensures var r := Router.RouteRequest(buf, count, webRoot, fs);
      DoSession(buf, count, lines, webRoot, fs, run) == Replied(StaticReply(OpenFile(fs, r.path)), 0, false)
  {
  }

  lemma GetToken()
    ensures PlainToken("GET", MethodCapacity) && IsGet("GET") && !IsPost("GET")
  {
  }

  lemma PostToken()
    ensures PlainToken("POST", MethodCapacity) && IsPost("POST") && !IsGet("POST")
  {
    assert Lower("POST"[0]) != Lower("GET"[0]);
  }

  /**
   A GET without query of a readable regular file without execute bits is
   answered by `get_content`: a 200 whose `Content-Length` is the number of
   body bytes, the body being the file, cut at 8192 bytes. No header line is
   read and no process is started.
   */
  lemma StaticFile(u: string, rest: string, count: nat, lines: seq<string>, webRoot: string, fs: Router.FileSystem, run: CgiRun, f: seq<byte>)
    requires PlainToken(u, UrlCapacity) && '?' !in u && count > 0
    requires |RequestBuffer("GET", u, rest)| == BufferSize
    requires var w := Router.WebPath(webRoot, u);
      w in fs && !Router.IsDirectory(fs[w].mode) && !Router.HasExecBit(fs[w].mode) && fs[w].contents == Some(f)
    ensures var o := DoSession(RequestBuffer("GET", u, rest), count, lines, webRoot, fs, run);
      && o == Replied(Success(StaticHeaders(Min(|f|, ContentBufferSize)), f[..Min(|f|, ContentBufferSize)]), 0, false)
      && (var m := ParseMessage(o.reply.headers + BytesAsText(o.reply.body));
          m.Some? && ContentLengthOf(m.value.lines) == Some(|o.reply.body|))
      && (|f| <= ContentBufferSize ==> o.reply.body == f)
  {
    StaticRoute(u, rest, count, webRoot, fs);
    StaticResponseReadsBack(f[..Min(|f|, ContentBufferSize)]);
  }

  /** A GET without query of an existing entry without execute bits is routed to the static server. */
  lemma StaticRoute(u: string, rest: string, count: nat, webRoot: string, fs: Router.FileSystem)
    requires PlainToken(u, UrlCapacity) && '?' !in u && count > 0
    requires |RequestBuffer("GET", u, rest)| == BufferSize
    requires var w := Router.WebPath(webRoot, u);
      w in fs && !Router.HasExecBit(fs[w].mode)
    ensures var w := Router.WebPath(webRoot, u);
      Router.RouteRequest(RequestBuffer("GET", u, rest), count, webRoot, fs) == Router.Static(Router.ServedPath(w, fs[w]))
  {
    GetToken();
    RequestLineTokens("GET", u, rest);
  }

  /** A request routed to the CGI executor is answered by `exec_cgi` with the routed method. */
  lemma CgiSession(buf: string, count: nat, lines: seq<string>, webRoot: string, fs: Router.FileSystem, run: CgiRun)
    requires |buf| == BufferSize
    requires Router.RouteRequest(buf, count, webRoot, fs).Cgi?
    ensures var c := ExecCgi(Router.RouteRequest(buf, count, webRoot, fs).verb, lines, run);
      DoSession(buf, count, lines, webRoot, fs, run) == Replied(c.reply, c.consumed, c.spawned)
  {
  }

  /** A POST to an existing path is routed to the CGI executor. */
  lemma PostRoute(u: string, rest: string, count: nat, webRoot: string, fs: Router.FileSystem)
    requires PlainToken(u, UrlCapacity) && count > 0
    requires |RequestBuffer("POST", u, rest)| == BufferSize
    requires Router.WebPath(webRoot, u) in fs
    ensures var r := Router.RouteRequest(RequestBuffer("POST", u, rest), count, webRoot, fs);
      r.Cgi? && r.verb == "POST"
  {
    PostToken();
    RequestLineTokens("POST", u, rest);
  }

  /**
   A POST to an existing path that announces `Content-Length: n` with
   `n > 0` starts the script once the pipes and the fork succeed, and sends
   `make_headers()` followed by everything the script wrote.
   */
  lemma PostRunsScript(u: string, rest: string, count: nat, before: seq<string>, n: nat, after: seq<string>,
                       webRoot: string, fs: Router.FileSystem, output: seq<seq<byte>>)
    requires PlainToken(u, UrlCapacity) && count > 0
    requires |RequestBuffer("POST", u, rest)| == BufferSize
    requires Router.WebPath(webRoot, u) in fs
    requires forall k :: 0 <= k < |before| ==> OtherHeader(before[k])
    requires 0 < n <= ULongMax
    ensures DoSession(RequestBuffer("POST", u, rest), count, before + [ContentLengthLine(n), "\n"] + after,
                      webRoot, fs, CgiRun(true, true, output))
      == Replied(Success(MakeHeaders(), Flatten(output)), |before| + 2, true)
  {
    PostRoute(u, rest, count, webRoot, fs);
    CgiSession(RequestBuffer("POST", u, rest), count, before + [ContentLengthLine(n), "\n"] + after,
               webRoot, fs, CgiRun(true, true, output));
    PostWithLength(before, n, after);
  }

  /** A POST that announces no length is answered with 400 and starts no process. */
  lemma PostWithoutLengthRefused(u: string, rest: string, count: nat, lines: seq<string>,
                                 webRoot: string, fs: Router.FileSystem, run: CgiRun)
    requires PlainToken(u, UrlCapacity) && count > 0
    requires |RequestBuffer("POST", u, rest)| == BufferSize
    requires Router.WebPath(webRoot, u) in fs
    requires forall k :: 0 <= k < |lines| ==> !IsContentLengthLine(lines[k])
    ensures DoSession(RequestBuffer("POST", u, rest), count, lines, webRoot, fs, run)
      == Replied(ErrorPage(Http400), DrainEnd(lines, 0), false)
  {
    PostRoute(u, rest, count, webRoot, fs);
    CgiSession(RequestBuffer("POST", u, rest), count, lines, webRoot, fs, run);
    Cgi.PostWithoutLengthRefused(lines, run);
  }

  // ---------------------------------------------------------------------
  // Two concrete requests

  /** What `readline` leaves after `GET /index.html` or `PUT /index.html`: the protocol, the newline, NULs. */
  function LineTail(): string
  {
    "HTTP/1.0\n" + seq(999, _ => '\0')
  }

  const DocRoot := "/srv/www"

  /** A web root holding one readable 50-byte `index.html`, mode `rw-r--r--`. */
  function OneFile(f: seq<byte>): Router.FileSystem
  {
    map["/srv/www/index.html" := Router.Entry(0x81A4, Some(f))]
  }

  /** `GET /index.html` of a 50-byte file: `Content-Length: 50` and the file's bytes as body. */
  lemma GetIndexScenario(f: seq<byte>, lines: seq<string>, run: CgiRun)
    requires |f| == 50
    ensures var o := DoSession(RequestBuffer("GET", "/index.html", LineTail()), 25, lines, DocRoot, OneFile(f), run);
      && o.Replied? && o.reply == Success(StaticHeaders(50), f)
      && ParseMessage(o.reply.headers + BytesAsText(o.reply.body)).Some?
      && ContentLengthOf(ParseMessage(o.reply.headers + BytesAsText(o.reply.body)).value.lines) == Some(50)
  {
    assert PlainToken("/index.html", UrlCapacity);
    assert Router.WebPath(DocRoot, "/index.html") == "/srv/www/index.html";
    StaticFile("/index.html", LineTail(), 25, lines, DocRoot, OneFile(f), run, f);
  }

  /** `PUT /index.html` is answered with 501. */
  lemma PutScenario(lines: seq<string>, webRoot: string, fs: Router.FileSystem, run: CgiRun)
    ensures DoSession(RequestBuffer("PUT", "/index.html", LineTail()), 25, lines, webRoot, fs, run)
      == Replied(ErrorPage(Http501), 0, false)
  {
    assert PlainToken("PUT", MethodCapacity) && PlainToken("/index.html", UrlCapacity);
    RequestLineTokens("PUT", "/index.html", LineTail());
    assert !IsGet("PUT") by { assert Lower("PUT"[0]) != Lower("GET"[0]); }
    assert !IsPost("PUT") by { assert |"PUT"| != |"POST"|; }
  }
}

=== FILE: text.dfy ===
/**
 Character-level helpers shared by the request parser and the response
 serialisers: the C library's `isspace`, `tolower`/`strcasecmp`, the view of a
 character array as a NUL-terminated C string, decimal rendering as done by
 `std::to_string`, and decimal parsing as done by `strtoul(…, 10)`.
 */
module Text {

  datatype Option<+T> = None | Some(value: T)

  newtype byte = x: int | 0 <= x < 256

  function Min(a: int, b: int): int { if a <= b then a else b }

  /** `isspace` in the C locale. */
  predicate IsSpace(c: char) {
    c == ' ' || c == '\t' || c == '\n' || c == '\r' || c == '\U{B}' || c == '\U{C}'
  }

  predicate IsDigit(c: char) { '0' <= c <= '9' }

  /** `tolower` in the C locale: only ASCII upper-case letters change. */
  function Lower(c: char): char {
    if 'A' <= c <= 'Z' then (c as int + 32) as char else c
  }

  /** `strcasecmp(a, b) == 0` for two C strings. */
  predicate EqualsIgnoreCase(a: string, b: string) {
    |a| == |b| && forall i :: 0 <= i < |a| ==> Lower(a[i]) == Lower(b[i])
  }

  /** The C string a character array denotes: everything before its first NUL. */
  function CString(s: string): (r: string)
    ensures |r| <= |s| && r == s[..|r|]
    ensures '\0' !in r
    ensures |r| < |s| ==> s[|r|] == '\0'
  {
    if s == [] || s[0] == '\0' then [] else [s[0]] + CString(s[1..])
  }

  /** Index of the first occurrence of `c` in `s`, as `std::string::find`. */
  function IndexOf(s: string, c: char): (r: Option<nat>)
    ensures r.None? <==> c !in s
    ensures r.Some? ==> r.value < |s| && s[r.value] == c && c !in s[..r.value]
  {
    if s == [] then None
    else if s[0] == c then Some(0)
    else match IndexOf(s[1..], c)
      case None => None
      case Some(i) => assert s[1..][..i] == s[1..i + 1]; Some(i + 1)
  }

  /** The characters a byte array puts on the wire, one per byte. */
  function BytesAsText(b: seq<byte>): (t: string)
    ensures |t| == |b|
    ensures forall i :: 0 <= i < |b| ==> t[i] as int == b[i] as int
  {
    seq(|b|, i requires 0 <= i < |b| => b[i] as int as char)
  }

  // ---------------------------------------------------------------------
  // Decimal numbers

  function DigitChar(d: nat): (c: char)
    requires d < 10
    ensures IsDigit(c)
  {
    ('0' as int + d) as char
  }

  function DigitValue(c: char): nat
    requires IsDigit(c)
  {
    c as int - '0' as int
  }

  predicate AllDigits(s: string) {
    forall i :: 0 <= i < |s| ==> IsDigit(s[i])
  }

  /** The number a string of decimal digits denotes. */
  function DigitsValue(s: string): nat
    requires AllDigits(s)
  {
    if s == [] then 0 else DigitsValue(s[..|s| - 1]) * 10 + DigitValue(s[|s| - 1])
  }

  /** `std::to_string` of an unsigned number. */
  function Decimal(n: nat): (r: string)
    ensures 0 < |r| && AllDigits(r)
    ensures r[0] == '0' ==> n == 0 && |r| == 1
    ensures '\r' !in r && '\n' !in r && '\0' !in r
  {
    if n < 10 then [DigitChar(n)] else Decimal(n / 10) + [DigitChar(n % 10)]
  }

  /** Reading back what `Decimal` writes gives the number again. */
  lemma {:induction false} DecimalRoundTrip(n: nat)
    ensures DigitsValue(Decimal(n)) == n
  {
    if n >= 10 {
      var s := Decimal(n);
      assert s[..|s| - 1] == Decimal(n / 10);
      DecimalRoundTrip(n / 10);
    }
  }

  /** A three-digit number is rendered as its three digits. */
  lemma Decimal3(n: nat)
    requires 100 <= n < 1000
    ensures Decimal(n) == [DigitChar(n / 100), DigitChar(n / 10 % 10), DigitChar(n % 10)]
  {
    assert n / 10 / 10 == n / 100;
    assert Decimal(n / 10 / 10) == [DigitChar(n / 100)];
  }

  // ---------------------------------------------------------------------
  // strtoul(s, nullptr, 10)

  const ULongModulus: nat := 0x1_0000_0000_0000_0000
  const ULongMax: nat := ULongModulus - 1

  /** End of the run of characters from `from` that satisfy `IsDigit`. */
  function DigitsEnd(s: string, from: nat): (end: nat)
    requires from <= |s|
    ensures from <= end <= |s|
    ensures AllDigits(s[from..end])
    ensures end < |s| ==> !IsDigit(s[end])
    decreases |s| - from
  {
    if from == |s| || !IsDigit(s[from]) then from else DigitsEnd(s, from + 1)
  }

  /** End of the run of `isspace` characters from `from`. */
  function SpacesEnd(s: string, from: nat): (end: nat)
    requires from <= |s|
    ensures from <= end <= |s|
    ensures forall k :: from <= k < end ==> IsSpace(s[k])
    ensures end < |s| ==> !IsSpace(s[end])
    decreases |s| - from
  {
    if from == |s| || !IsSpace(s[from]) then from else SpacesEnd(s, from + 1)
  }

  /** A run of digits that ends at a non-digit or at the end is the whole run. */
  lemma DigitsEndAt(s: string, from: nat, end: nat)
    requires from <= end <= |s|
    requires forall k :: from <= k < end ==> IsDigit(s[k])
    requires end < |s| ==> !IsDigit(s[end])
    ensures DigitsEnd(s, from) == end
    decreases end - from
  {
    if from < end {
      DigitsEndAt(s, from + 1, end);
    }
  }

  /** A run of white space that ends at another character or at the end is the whole run. */
  lemma SpacesEndAt(s: string, from: nat, end: nat)
    requires from <= end <= |s|
    requires forall k :: from <= k < end ==> IsSpace(s[k])
    requires end < |s| ==> !IsSpace(s[end])
    ensures SpacesEnd(s, from) == end
    decreases end - from
  {
    if from < end {
      SpacesEndAt(s, from + 1, end);
    }
  }

  /**
   `strtoul(s, nullptr, 10)`: leading white space is skipped, one optional sign
   is accepted, then the longest run of digits is converted; no digits gives 0,
   a value beyond `ULONG_MAX` saturates, and a minus sign negates modulo 2^64.
   */
  function StrToUL(s: string): (r: nat)
    ensures r <= ULongMax
  {
    var i := SpacesEnd(s, 0);
    var negative := i < |s| && s[i] == '-';
    var j := if i < |s| && (s[i] == '+' || s[i] == '-') then i + 1 else i;
    var k := DigitsEnd(s, j);
    if k == j then 0
    else
      var v := DigitsValue(s[j..k]);
      if v > ULongMax then ULongMax
      else if negative then (ULongModulus - v) % ULongModulus
      else v
  }

  /** A text that does not begin with white space, a sign or a digit converts to 0. */
  lemma StrToULNoNumber(s: string)
    requires 0 < |s| && !IsSpace(s[0]) && !IsDigit(s[0]) && s[0] != '+' && s[0] != '-'
    ensures StrToUL(s) == 0
  {
    assert SpacesEnd(s, 0) == 0;
    assert DigitsEnd(s, 0) == 0;
  }

  /** `strtoul` reads back a rendered number that is followed by a non-digit. */
  lemma StrToULDecimal(pre: string, n: nat, post: string)
    requires forall k :: 0 <= k < |pre| ==> IsSpace(pre[k])
    requires n <= ULongMax
    requires post == [] || !IsDigit(post[0])
    ensures StrToUL(pre + Decimal(n) + post) == n
  {
    var s := pre + Decimal(n) + post;
    var d := Decimal(n);
    assert forall k :: 0 <= k < |pre| ==> s[k] == pre[k];
    assert forall k :: |pre| <= k < |pre| + |d| ==> s[k] == d[k - |pre|];
    assert !IsSpace(s[|pre|]);
    SpacesEndAt(s, 0, |pre|);
    assert post != [] ==> s[|pre| + |d|] == post[0];
    DigitsEndAt(s, |pre|, |pre| + |d|);
    assert s[|pre|..|pre| + |d|] == d;
    DecimalRoundTrip(n);
  }
}

=== FILE: wire.dfy ===
/**
 The HTTP/1.0 header framing every response of the server uses: a block of
 lines, each ended by CRLF, closed by an empty line. Besides the builders the
 module holds a small reader for that framing (status code, `Content-Length`,
 the split at the first blank line), against which the serialisers are proved.
 */
module Wire {
  import opened Text

  const CrLf := "\r\n"
  const ServerHeader := "Server: tinyhttpd/0.0.1"

  /** Each line followed by CRLF. */
  function JoinLines(ls: seq<string>): string
  {
    if ls == [] then "" else ls[0] + CrLf + JoinLines(ls[1..])
  }

  /** A header block: the lines, then the empty line that ends it. */
  function HeaderBlock(ls: seq<string>): string
  {
    JoinLines(ls) + CrLf
  }

  /** Lines a header block may hold: non-empty and free of CR. */
  predicate HeaderLines(ls: seq<string>) {
    forall i :: 0 <= i < |ls| ==> |ls[i]| > 0 && '\r' !in ls[i]
  }

  const OkStatusLine := "HTTP/1.0 200 OK"

  /**
   `make_headers()`: the 200 status line and the server identity, each ended
   by CRLF, without the blank line that would close the block.
   */
  function MakeHeaders(): (r: string)
    ensures r == JoinLines([OkStatusLine, ServerHeader])
  {
    var r := "HTTP/1.0 200 OK\r\n" + "Server: tinyhttpd/0.0.1\r\n";
    assert JoinLines([ServerHeader]) == ServerHeader + CrLf + JoinLines([]);
    assert [OkStatusLine, ServerHeader][1..] == [ServerHeader];
    r
  }

  /** The status line `make_headers` writes reads back as code 200. */
  lemma OkStatusCode()
    ensures StatusCodeOf(OkStatusLine) == Some(200)
  {
    assert OkStatusLine[9..12] == "200";
    assert DigitsValue("200") == 200 by {
      assert "200"[..2] == "20";
      assert "20"[..1] == "2";
      assert "2"[..0] == "";
    }
  }

  // ---------------------------------------------------------------------
  // Reading the framing back

  datatype Message = Message(lines: seq<string>, body: string)

  predicate CrLfAt(s: string, k: nat)
    requires k + 1 < |s|
  {
    s[k] == '\r' && s[k + 1] == '\n'
  }

  /** Index of the first CRLF at or after `from`. */
  function FindCrLf(s: string, from: nat): (r: Option<nat>)
    requires from <= |s|
    ensures r.Some? ==> from <= r.value && r.value + 1 < |s| && CrLfAt(s, r.value)
    ensures r.Some? ==> forall k :: from <= k < r.value ==> !CrLfAt(s, k)
    ensures r.None? ==> forall k :: from <= k && k + 1 < |s| ==> !CrLfAt(s, k)
    decreases |s| - from
  {
    if from + 1 >= |s| then None
    else if CrLfAt(s, from) then Some(from)
    else FindCrLf(s, from + 1)
  }

  /** Splits a text into its header lines and what follows the first empty line. */
  function ParseMessage(s: string): Option<Message>
    decreases |s|
  {
    match FindCrLf(s, 0)
    case None => None
    case Some(i) =>
      if i == 0 then Some(Message([], s[2..]))
      else match ParseMessage(s[i + 2..])
        case None => None
        case Some(m) => Some(Message([s[..i]] + m.lines, m.body))
  }

  /** The code of an `HTTP/1.0 <3 digits> <reason>` status line. */
  function StatusCodeOf(line: string): Option<nat>
  {
    if |line| >= 13 && line[..9] == "HTTP/1.0 " && AllDigits(line[9..12]) && line[12] == ' '
    then Some(DigitsValue(line[9..12]))
    else None
  }

  /** The value of the first `<name>: <value>` line. */
  function FieldValue(ls: seq<string>, name: string): (r: Option<string>)
    ensures r.Some? ==> exists i :: 0 <= i < |ls| && ls[i] == name + ": " + r.value
  {
    if ls == [] then None
    else
      var p := name + ": ";
      if |ls[0]| >= |p| && ls[0][..|p|] == p then
        assert ls[0] == p + ls[0][|p|..];
        Some(ls[0][|p|..])
      else FieldValue(ls[1..], name)
  }

  /** The `Content-Length` a header block announces, when it is a decimal number. */
  function ContentLengthOf(ls: seq<string>): Option<nat>
  {
    match FieldValue(ls, "Content-Length")
    case Some(v) => if |v| > 0 && AllDigits(v) then Some(DigitsValue(v)) else None
    case None => None
  }

  /** The first CRLF of a CR-free line followed by CRLF is the one that ends it. */
  lemma FindCrLfEndsLine(l: string, rest: string)
    requires '\r' !in l
    ensures FindCrLf(l + CrLf + rest, 0) == Some(|l|)
  {
    var s := l + CrLf + rest;
    assert CrLfAt(s, |l|);
    assert forall k :: 0 <= k < |l| ==> s[k] == l[k];
  }

  /** Reading a header block back yields exactly its lines and what follows it. */
  lemma {:induction false} ParseHeaderBlock(ls: seq<string>, body: string)
    requires HeaderLines(ls)
    ensures ParseMessage(HeaderBlock(ls) + body) == Some(Message(ls, body))
  {
    if ls == [] {
      assert HeaderBlock(ls) + body == CrLf + body;
      FindCrLfEndsLine("", body);
      assert (CrLf + body)[2..] == body;
    } else {
      var rest := HeaderBlock(ls[1..]) + body;
      var s := HeaderBlock(ls) + body;
      assert s == ls[0] + CrLf + rest;
      FindCrLfEndsLine(ls[0], rest);
      assert s[..|ls[0]|] == ls[0];
      assert s[|ls[0]| + 2..] == rest;
      ParseHeaderBlock(ls[1..], body);
      assert [ls[0]] + ls[1..] == ls;
    }
  }

  /** A `Content-Length: n` line, placed after lines of other names, is read back as `n`. */
  lemma ContentLengthField(before: seq<string>, n: nat, after: seq<string>)
    requires forall i :: 0 <= i < |before| ==> |before[i]| < 16 || before[i][..16] != "Content-Length: "
    ensures ContentLengthOf(before + ["Content-Length: " + Decimal(n)] + after) == Some(n)
  {
    assert "Content-Length" + ": " == "Content-Length: ";
    FieldAfterOthers(before, "Content-Length", Decimal(n), after);
    DecimalRoundTrip(n);
  }

  lemma {:induction false} FieldAfterOthers(before: seq<string>, name: string, v: string, after: seq<string>)
    requires forall i :: 0 <= i < |before| ==> |before[i]| < |name| + 2 || before[i][..|name| + 2] != name + ": "
    ensures FieldValue(before + [name + ": " + v] + after, name) == Some(v)
  {
    var ls := before + [name + ": " + v] + after;
    if before == [] {
      assert ls[0] == name + ": " + v;
      assert ls[0][..|name| + 2] == name + ": ";
      assert ls[0][|name| + 2..] == v;
    } else {
      assert ls[0] == before[0];
      assert ls[1..] == before[1..] + [name + ": " + v] + after;
      FieldAfterOthers(before[1..], name, v, after);
    }
  }
}
